=== FILE: README.md ===
# Legacy command API compatibility layer, modelled in Dafny

This project models the self-contained logic of `compat.js`. That module
installs the WD.js 0.2.2 vocabulary on a Leadfoot `Command` chain. Most of its
methods forward to the automation engine. The model covers the rules that sit
under that forwarding:

- the one-shot deprecation notifier (`warn`);
- the element-versus-context dispatch of `deprecateElementSig`,
  `deprecateElementAndStandardSig`, `getValue`, `equalsElement`,
  `getPageIndex` and `isVisible`;
- the legacy argument rotation of `setWindowSize` and `setWindowPosition`;
- the failure-to-sentinel mappings of `elementOrNull`, `elementIfExists`,
  `hasElement` and the two-argument `isVisible`;
- the scoped find timeout of `waitForElement` and `waitForVisible`;
- the `textPresent` substring test;
- the `||` defaults of `waitForCondition` and `waitForConditionInBrowser`;
- the no-op methods;
- the generation of per-strategy shorthand names;
- `applyTo`.

Layout, one module per file:

- `js_values.dfy` (`JsValues`): the JavaScript values the layer inspects.
  - Truthiness.
  - The element discriminator `v && v.elementId` as `IsElement`.
  - `typeof v === 'number'`.
  - `String(v)` as `indexOf` applies it.
- `outcomes.dfy` (`Outcomes`): `Option` and `Result`, engine rejections, and the layer's own failures.
- `deprecation.dfy` (`Deprecation`): `warn` as a function over an explicit warned set, returning the published events.
- `calls.dfy` (`Calls`): a `Plan` is what a legacy call produces. It holds the notices issued, in order, and the `Action` handed on: a forwarded call, a lookup, a wait, and so on.
- `legacy.dfy` (`Legacy`): the plan of every legacy method whose logic is modelled.
- `registry.dfy` (`Registry`): the `methods` table as a map from name to behaviour. `PlanOf` interprets a behaviour, and `Run` threads the warned set through a call.
- `sentinels.dfy`, `fan_out.dfy`, `text_search.dfy`, `scoped_timeout.dfy`: what each kind of action settles to. The engine's answers are parameters.
- `settlement.dfy` (`Settlement`): `Settle` maps every kind of action to the rule above that settles it, against a `World` of engine answers.
- `strategies.dfy` (`Strategies`): the strategy expansion loop.
- `installer.dfy` (`Installer`): `applyTo`.

Design choices:

- Plans depend on the call's arguments only. The warned set is threaded
  separately by `Registry.Run`, so the work a call does never depends on
  which notices were already published.
- Engine rejections (`EngineError`) and the layer's own failures (`Failure`)
  are different types. The "Element didn't become visible" failure therefore
  cannot be mistaken for a lookup error.

Facts about the code that are easy to miss, all modelled as the code has them:

- The `...OrNull` and `...IfExists` shorthands are named with the adjusted
  suffix (`elementByXPathOrNull`), like the other three shorthands
  (compat.js:509-531).
- `deprecateElementSig` without `fn` calls the original
  `Command.prototype[fromMethod]` for a non-element first argument, and issues
  no notice (compat.js:60).
- On an element, `deprecateElementSig` looks the method up on the element but
  applies it with the new command as `this`, while `getValue`,
  `equalsElement`, `getPageIndex` and `isVisible` call the element's method
  on the element itself (compat.js:55-57 against 325, 336, 392, 485).
- If restoring the find timeout itself failed, the code would deliver that
  rejection instead of the original outcome. The model treats
  `setFindTimeout` as infallible (see Left out).
- `waitForVisible` resolves to `undefined` on success, not to the element
  (compat.js:120-124).

## Model

| member | source | states |
|---|---|---|
| `Deprecation.Warn` | compat.js:142-152 | After a call the name is in the warned set. At most one event is published, and one is published exactly when the name was not yet warned. The event is the call's own `(name, replacement, extra)`. |
| `Deprecation.WarnAll` | compat.js:142-152 | A sequence of `warn` calls adds exactly its names to the warned set. It publishes one event per name not previously warned and no name twice. Each event is the arguments of the first call carrying its name, and events come in the order of those first calls. |
| `Deprecation.FirstIndex` | compat.js:145-150 | The position found holds the name, and no earlier call carries it: the reference for "the first call with this name". |
| `Deprecation.FirstCallArgumentsWin` | compat.js:145-150 | Of two calls with the same name, the first call's `(name, replacement, extra)` is the one published, or nothing if the name was already warned. |
| `Deprecation.WarnTwicePublishesOnce` | compat.js:145-150 | Two `warn` calls with the same name publish exactly one event together (none if already warned). The second call publishes nothing. |
| `Deprecation.WarnIsolated` | compat.js:143-149 | Warning one name never changes whether another name is warned, and the warned set only grows. |
| `Deprecation.ReplayIsSilent` | compat.js:142-152 | Replaying any sequence of `warn` calls against the resulting state publishes nothing. |
| `Registry.Run` | compat.js:142-152 | A legacy call does the work its plan describes whatever the warned state. It adds the plan's own notice names to the warned set. Of its own notices it publishes exactly the names that were not yet warned, as distinct notices of the plan. Notices of a compat method it forwards to are that method's own run. |
| `Registry.SecondCallPublishesNothing` | compat.js:142-152 | Calling any legacy method twice the same way does the same work both times. The first call publishes every one of its notice names not yet warned, and the second publishes nothing. |
| `Registry.PlanOf` | compat.js:22-74 | Every legacy call issues at most one notice of its own; the method it forwards to may issue more (see `Registry.ForwardedCallCanNotifyAgain`). A shorthand issues none of its own. A plain deprecation always issues one and forwards the arguments unchanged. An element-signature call on an element issues one notice and applies the element's method to the new command. Without `fn`, a non-element call goes silently to the prototype's method. |
| `Registry.CustomPlan` | compat.js:155-502 | Every hand-written entry issues exactly one notice per call, except `setWindowSize` and `setWindowPosition`, which issue one exactly for the legacy argument order. |
| `Registry.Methods` | compat.js:154-503 | The assembled table holds `sessionID` as its one accessor, bound to the session read with its notice, and `init` as a no-op. |
| `Registry.ForwardedCallCanNotifyAgain` | compat.js:22-27 | `windowSize(w, h, handle)` with a numeric `w`, on a fresh warned set, publishes its own notice and forwards to `this.setWindowSize(w, h, handle)`. Run on the chain, that compat method finds the legacy order and publishes a second notice of its own (compat.js:220-232). One legacy call can therefore publish two notices. |
| `Registry.SessionEntriesReadSession` | compat.js:155-198 | Looked up in the table, `sessionID` (an accessor), `status`, `sessions`, `sessionCapabilities`, `altSessionCapabilities`, `getSessionId` and `getSessionID` each issue one notice named after the key, with the session-property or capabilities replacement the code gives or none, and then read engine state under the key's own name. |
| `Registry.NoOpEntriesReturnThis` | compat.js:165-168 | Looked up in the table, `init`, `setHTTPInactivityTimeout`, `uploadFile`, `sauceJobUpdate` and `sauceJobStatus` (also lines 384-387, 407-415, 432-449) issue their own notice and return the chain, whatever the arguments. |
| `JsValues.IsElement` | compat.js:49 | The discriminator agrees with evaluating `v && v.elementId` under JavaScript `&&` and property reading; an element is always a truthy object. The same test appears at lines 319, 333, 390 and 483. |
| `JsValues.ToJsString` | compat.js:294 | `String(v)` leaves a string unchanged. A number becomes its decimal digits, with a leading `-` exactly when it is negative. |
| `JsValues.NatToString` | compat.js:294 | A number's decimal form is non-empty, made only of digits, and has no leading zero. |
| `JsValues.NatToStringRoundTrip` | compat.js:294 | Reading the decimal digits back gives the number, so the rendering loses nothing. |
| `JsValues.NumberStringRoundTrip` | compat.js:294 | `String(n)` reads back as `n` for every integer, negative ones included. |
| `Legacy.DeprecatePlan` | compat.js:22-27 | `deprecate(from, to)` issues one notice `Command#from` with replacement `Command#to`. It then calls `to` on the chain with the caller's arguments unchanged. |
| `Legacy.ElementSigPlan` | compat.js:47-62 | An element first argument gives one element-signature notice. It then takes the element's `toMethod` (or `fromMethod` when absent) and applies it, inside `new Command(this, ...)`, with the new command rather than the element as `this` and the remaining arguments; the element plus the forwarded arguments equal the caller's list. Otherwise `fn`'s behaviour runs with all arguments, or, without `fn`, `Command.prototype[fromMethod]` runs on the chain with no notice. |
| `Legacy.ElementSigUsesElementIff` | compat.js:48-60 | When `fn` is absent or a plain deprecation, the element's method is used exactly when the first argument is an element. No argument is lost or reordered. |
| `Legacy.StandardSigIsPureDelegate` | compat.js:72-74 | `deprecateElementAndStandardSig(from, to)` with a non-element first argument calls `to` on the chain with the caller's arguments and issues the `Command#from` notice. |
| `Registry.StandardSigBehavesAsDeprecate` | compat.js:72-74 | From any warned state, `deprecateElementAndStandardSig(from, to)` with a non-element first argument gives the same state, events and action as `deprecate(from, to)`. |
| `Legacy.WindowArgs` | compat.js:221-242 | Three arguments with a numeric first one become `[a2, a0, a1]`. Any other list passes unchanged. The result always has the same length and multiset of values. |
| `Legacy.WindowArgsRoundTrip` | compat.js:224-228 | The rotation of a legacy list is undone by moving the front argument back to the end. |
| `Legacy.WindowPlan` | compat.js:221-242 | A notice is issued exactly when the list has the legacy shape. The original method always receives the (possibly rotated) list. |
| `Legacy.LegacyWindowOrderAgrees` | compat.js:221-242 | `setWindowSize(w, h, handle)` and `setWindowSize(handle, w, h)` reach `Command.prototype`'s method with identical arguments, and the same holds for `setWindowPosition`. Only the legacy form notifies. |
| `Legacy.TextPresentPlan` | compat.js:290-304 | The visible text of `element` is tested when `element` is truthy (no `elementId` check, so a non-object rejects when settled), and the context's text otherwise. The search text is `String(searchText)`, so a missing one searches `"undefined"`. |
| `TextSearch.IndexOfFrom` | compat.js:293-295 | `indexOf` from a position returns the first occurrence at or after it, or -1 exactly when there is none. |
| `TextSearch.IndexOf` | compat.js:293-295 | `indexOf` returns -1 exactly when the pattern occurs nowhere. Otherwise it returns an occurrence with none before it. |
| `TextSearch.Contains` | compat.js:293-295 | `indexOf(search) > -1` holds exactly when `search` occurs somewhere in the text. |
| `TextSearch.EmptySearchAlwaysPresent` | compat.js:293-295 | An empty search text is present in every text. |
| `TextSearch.SettleTextTest` | compat.js:297-303 | A failure to read the visible text is passed through. Otherwise the result is `true` exactly when the search text occurs in it. |
| `Legacy.GetValuePlan` | compat.js:318-331 | The `value` attribute is always read. It is read from the handle exactly when the first argument is an element, and from the context otherwise. The element form is announced under its own name `Command#getValue(element)`. |
| `Legacy.GetValueReceiverDiffersFromGetAttribute` | compat.js:318-331 | `getValue(element)` and the element form of `getAttribute(element, 'value')` (compat.js:317, through lines 55-57) pick the same method of the same element with the same argument. They differ in the receiver: `getValue` calls it on the element (line 325), while `getAttribute` applies it to the new command. |
| `Legacy.EqualsElementPlan` | compat.js:332-342 | When `other` is an element, `element.equals(other)` is called. Otherwise the context is compared with `element`. One argument is always passed, and the two forms are announced under different names. |
| `Legacy.EqualsElementIgnoresNonElementOther` | compat.js:332-342 | A non-element `other` is ignored: `equalsElement(a, b)` plans exactly like `equalsElement(a)`. |
| `Legacy.GetPageIndexPlan` | compat.js:388-406 | The notice is issued on both paths. `pageIndex` is read from the handle exactly when the first argument is an element, and from every context element otherwise. |
| `Legacy.IsVisiblePlan` | compat.js:467-500 | The notice comes first whatever the shape. Two arguments mean lookup then display check; exactly one element argument means that handle's display check. Any other shape checks the context. |
| `Legacy.IsVisibleNonElementFallsThrough` | compat.js:481-490 | A single non-element argument behaves exactly like no argument. |
| `Sentinels.SettleLookupDisplayed` | compat.js:474-480 | The two-argument `isVisible` always settles successfully. A failed lookup or a failed display check gives `false`; otherwise it gives the engine's answer. |
| `FanOut.AllOf` | compat.js:401-403 | `Promise.all` succeeds exactly when every answer does, with the values in order. A failure is one of the answers' failures. |
| `FanOut.SettleEach` | compat.js:396-405 | A single context gives its first element's answer, or a `TypeError` when it is empty. A collection succeeds exactly when every element's request does, giving an array in context order. Otherwise it fails with one element's engine error. |
| `FanOut.CollectionAnswersInContextOrder` | compat.js:495-497 | For a collection whose requests all succeed, the result has one entry per element and the i-th entry is the i-th element's answer. |
| `Legacy.LookupPlan` | compat.js:271-282 | `elementOrNull`, `elementIfExists` and `hasElement` each issue their notice. Each then looks up with the first two arguments and the chosen sentinel. |
| `Sentinels.ElementOrNull` | compat.js:80-84 | A found element is returned unchanged, and a failed lookup gives `null`. |
| `Sentinels.ElementIfExists` | compat.js:76-78 | A found element is returned unchanged, and a failed lookup gives `undefined`. |
| `Sentinels.HasElement` | compat.js:86-92 | The result is `true` exactly when the lookup succeeds. |
| `Sentinels.SettleLookup` | compat.js:76-92 | All three recoverable lookups settle successfully and never propagate the lookup error. |
| `Sentinels.SentinelsRevealFailure` | compat.js:76-92 | When lookups only find element handles, `elementOrNull` yields an element exactly on success and `null` exactly on failure. `elementIfExists` yields `undefined` exactly on failure. The two differ exactly on failure. |
| `Legacy.WaitForElementPlan` | compat.js:450-457 | `waitForElement` issues its notice, then waits with `(using, value, timeout)` taken positionally. |
| `Legacy.WaitForVisiblePlan` | compat.js:458-466 | `waitForVisible` issues its notice with a `null` replacement, then waits with `(using, value, timeout)` taken positionally. |
| `ScopedTimeout.WithFindTimeout` | compat.js:94-108 | The find timeout after the call equals the one before, whatever the operation delivers. The operation runs under the temporary timeout, and its outcome is delivered unchanged. The restore is the last request, after everything the operation sent. |
| `ScopedTimeout.WaitForElement` | compat.js:94-108 | The find timeout is restored on success and failure alike. The outcome is exactly the lookup's outcome under the temporary timeout. The requests are read, set, find, restore, in that order. |
| `ScopedTimeout.WaitForVisible` | compat.js:110-131 | The find timeout is restored on lookup failure, poll failure and success, as the last request. Lookup and poll failures pass through. A truthy poll answer gives `undefined`, and a falsy one gives "Element didn't become visible". |
| `ScopedTimeout.NotVisibleOnlyFromPoll` | compat.js:119-129 | "Element didn't become visible" is delivered exactly when the lookup succeeded and the poll settled on a falsy answer. |
| `Legacy.ConditionPlan` | compat.js:416-431 | An absent, zero or otherwise falsy timeout becomes 1000, and a falsy poll interval becomes 100. Truthy values are kept. The values handed to the poll are never falsy. |
| `Legacy.ConditionDefaultsSettle` | compat.js:416-431 | The defaults are a fixed point: planning again with the defaulted timeout and poll interval gives the same call and notice. |
| `Legacy.NoOpPlan` | compat.js:407-415 | `init`, `setHTTPInactivityTimeout`, `uploadFile`, `sauceJobUpdate` and `sauceJobStatus` (also lines 165-168, 384-387, 432-449) issue one notice and return the chain unchanged, whatever the arguments. |
| `Legacy.ElementsByIdPlan` | compat.js:261-264 | `elementsById(value)` issues its notice and calls `findAll('id', value)`. |
| `Legacy.ElementsByIdReadsFirstArgument` | compat.js:261-264 | `elementsById` reads only its first argument: extra arguments change nothing. |
| `Legacy.GetLocationInViewIsDeprecate` | compat.js:346-356 | `getLocationInView` is the plain deprecation to `getPosition`, with the same forwarded call and the same notice name and replacement, plus its own remark. |
| `Legacy.GetLocationInViewPlan` | compat.js:346-356 | `getLocationInView` issues its notice and calls `getPosition` with the caller's arguments. |
| `Legacy.SessionPlan` | compat.js:155-198 | The session and server members issue their own notice (with the session-property replacement where the code gives one) and then read engine state, which the model leaves opaque. |
| `Legacy.EvalPlan` | compat.js:208-215 | `eval` and `safeEval` issue their notice, then call `execute` on the chain with the code as the script's only argument. |
| `Legacy.SafeEvalIsEval` | compat.js:208-215 | `safeEval` makes exactly the call `eval` makes; only the notice names differ. |
| `Legacy.NewWindowReadsTwoArguments` | compat.js:376-379 | `newWindow` reads only its first two arguments, a missing one counting as `undefined`. |
| `Legacy.NewWindowPlan` | compat.js:376-379 | `newWindow(url, name)` issues its notice, then calls `execute` with the URL and the name as the script's arguments. |
| `Legacy.WindowNamePlan` | compat.js:380-383 | `windowName` issues its notice, then calls `execute` with the script alone. |
| `Legacy.WindowNameIgnoresArguments` | compat.js:380-383 | Whatever the caller passes, `windowName` makes the same call. |
| `Registry.ShorthandPlan` | compat.js:508-528 | A generated shorthand issues no notice of its own. It calls its generic compat method on the chain with its bound strategy first and the value next; the two wait forms also pass the timeout. |
| `Registry.ShorthandReachesGeneric` | compat.js:509-527 | Followed through the generic method it calls, each shorthand performs the generic lookup or wait with its own strategy and the caller's value and timeout. The generic method issues its own notice (for example `Command#hasElement`, compat.js:279-281). |
| `Registry.ShorthandWarnsAsGeneric` | compat.js:509-527 | A shorthand call publishes nothing itself. The generic method it reaches publishes that method's notice if it was not yet warned, and the name is warned afterwards. |
| `Settlement.Settle` | compat.js:76-131 | Only the two waits touch the find timeout, and they leave it as they found it. Every other action leaves the engine untouched. The recoverable lookups never reject. "Element didn't become visible" comes only from `waitForVisible`. A `TypeError` comes exactly from an empty single context or from a handle method called on a value that is not an object (compat.js:297-299, 333-336). |
| `Settlement.TextPresentOnNonObjectRejects` | compat.js:297-299 | `textPresent(search, element)` with a truthy `element` that is not an object (`"bar"`, say) rejects with a `TypeError`, whatever the engine would answer. |
| `Settlement.EqualsElementOnNonObjectRejects` | compat.js:333-336 | `equalsElement(element, other)` with an element `other` rejects with a `TypeError` when `element` is not an object, and gives the engine's `element.equals(other)` answer when it is. |
| `Settlement.Lift` | compat.js:25 | A forwarded call's answer is delivered unchanged: success for success, the engine's rejection for a rejection. |
| `Settlement.EveryCallKeepsFindTimeout` | compat.js:94-131 | Whatever legacy method is called with whatever arguments, the find timeout afterwards is the one before. |
| `Settlement.HasElementAnswersLookup` | compat.js:86-92 | `hasElement(using, value)` always resolves, to whether the lookup under the current find timeout succeeded. |
| `Settlement.WaitForElementSettlesUnderCallerTimeout` | compat.js:94-108 | `waitForElement(using, value, timeout)` settles to the lookup under the caller's timeout, with the engine's timeout put back. |
| `Strategies.WdSuffix` | compat.js:530 | The suffix `Xpath` is spelled `XPath` in generated names, and every other suffix is kept as it is. |
| `Strategies.AddFamily` | compat.js:508-528 | Adding a family defines exactly its five names, each bound to the strategy with its own kind. Every other key is left untouched. |
| `Strategies.AddStrategy` | compat.js:530-537 | One strategy defines the five names of its adjusted suffix, plus the five `Css` names for `CssSelector`. Every other key is left untouched. |
| `Strategies.AddStrategyBinds` | compat.js:530-537 | After one strategy is added, each of its names (the `Css` names too, for `CssSelector`) holds that strategy's shorthand of the matching kind. The `CssSelector` and `Css` families never overwrite each other. |
| `Strategies.Expand` | compat.js:507-538 | The expanded table has exactly the original keys plus the generated names. A key that no strategy generates keeps its original descriptor. |
| `Strategies.ExpandBindsStrategy` | compat.js:507-538 | Each generated name of the strategy at index i is bound to `strategies[i]` with its own kind, unless a later strategy generates the same name. This covers the `Css` family of `CssSelector`. |
| `Strategies.CssAliasesCssSelector` | compat.js:535-537 | `hasElementByCss` and `hasElementByCssSelector` (and the other four pairs) carry the same descriptor, so they behave identically. |
| `Strategies.XpathNamesUseXPath` | compat.js:530-534 | The `Xpath` strategy's names use `XPath`, and each is bound to that strategy. |
| `Strategies.XpathSpelling` | compat.js:530-531 | The `Xpath` shorthands are named `elementByXPathOrNull`, `elementByXPathIfExists` and `hasElementByXPath`. |
| `Installer.ApplyTo` | compat.js:546-550 | Every key of the table is defined on the target with the table's descriptor. Every other key of the target keeps its descriptor. No other key appears. |
| `Installer.ApplyToIsOverride` | compat.js:546-550 | Any result meeting that contract is the map override of the target by the table, whatever order the keys were taken in. |
| `Installer.OverrideIdempotent` | compat.js:546-550 | Applying the table twice leaves the target as applying it once. |

## Left out

- What the session and server members (`sessionID`, `status`, `sessions`, `sessionCapabilities`, `altSessionCapabilities`, `getSessionId`, `getSessionID`) read from the engine is not modelled. Their notices are modelled; their result is an opaque read.
- The scripts `eval`, `safeEval`, `newWindow` and `windowName` hand to `execute` are carried as text. What the browser does with them is not modelled.
- TextSearch.IndexOf: positions count characters (Unicode scalar values), while JavaScript's `indexOf` counts UTF-16 code units, so indices differ after a character outside the Basic Multilingual Plane. Whether the text occurs, which is all `textPresent` uses, is the same either way.
- Registry.Run: a plain deprecation forwards to `this[toMethod]` (compat.js:25), which may itself be a compat method that notifies again, as `Registry.ForwardedCallCanNotifyAgain` shows. `Run` accounts for the call's own notices only; the forwarded call is a separate run.
- Settlement.Settle: a `TypeError` is produced for handle calls on values that are not objects. An object that lacks the method (a plain object passed as `element`) would throw too, but the model does not know an object's methods and leaves its answer to the engine.
- TextSearch.SettleTextTest: the context's visible text is taken to be one string. For a context holding several elements the engine answers an array, whose `indexOf` compares whole entries; that case is not modelled.
- Installer.ApplyTo: the target is taken not to be `Command.prototype` itself; there, the calls through `Command.prototype` at compat.js:60, 230 and 241 would reach the compat method again and recurse. `Object.defineProperty` (compat.js:548) is taken never to throw; on a target with a non-configurable key of the same name it would throw after installing the earlier keys.
- Promise chaining and `new Command(this, ...)` deferral are not modelled. A forwarded call is recorded as a target, a member and an argument list. The target says whose method runs and on which receiver, as the code picks them. What an element's method does when its receiver is a command (compat.js:55-57) is the engine's.
- `pollUntil` timing is a parameter: the poll's answer for the element found. The budget expression at compat.js:118, `timeout - (startTime - Date.now())`, grows with elapsed time instead of shrinking. Wall-clock time is not modelled, so this is noted only.
- The outcome of `waitForCondition` and `waitForConditionInBrowser` is `pollUntil`'s. The model stops at the `PollCondition` action with the defaulted parameters.
- ScopedTimeout.WithFindTimeout: `getFindTimeout` and `setFindTimeout` are assumed to succeed. In the source, a rejected restore would replace the delivered outcome, and a rejected first `setFindTimeout` would skip the lookup.
- FanOut.AllOf: when several elements fail, JavaScript reports whichever rejection happens first in time. The model picks the first in context order, and its contract promises only that the failure is one of the elements' failures.
- JavaScript numbers are integers here. NaN, infinities and fractions are not modelled, and neither is the exponent notation `String` uses for very large numbers.
- `String(object)` is always `"[object Object]"`; a custom `toString` is not modelled.
- The locator strategy list is a parameter: a list of `(suffix, strategy)` pairs. The strategies module is not part of this model.
- Deprecation event texts are carried as constants. No property beyond the symbol name is proved about them.
- Registry.Methods: the table is written out as data, in four parts, each in source order. The source object repeats no key, so the parts share none and the union's order is immaterial; the first part is joined last. Only the session keys, `init` and the other no-op keys are proved to resolve as listed. Nothing proves that every entry is filed under its own name, because looking up deep keys of a 104-entry string-keyed map exceeds the verifier's budget.
- `topic.publish` transport: the published events are returned as a list instead.

=== FILE: calls.dfy ===
/** What a legacy call turns into: the deprecation notices it issues, in order,
    and the one piece of work it hands on. The work is described, not performed;
    its outcome given the engine's answers is `Settlement.Settle`. */
module Calls {
  import opened JsValues
  import opened Deprecation

  /** Whose method a forwarded call runs, and on which receiver. */
  datatype Target =
    | Context                              // `this[m](...)`: the chain's method, whose methods may be compat ones
    | Prototype                            // `Command.prototype[m].apply(this, ...)`: the prototype's own method on the chain
    | Handle(element: Value)               // `element[m](...)`: the element's method, on the element
    | ElementMethodOnChain(element: Value) // `element[m].apply(this, ...)` inside `new Command(this, ...)`:
                                           // the element's method, with the new command as receiver

  /** How a failed single-element lookup is turned into a success. */
  datatype Sentinel =
    | OrNull     // `elementOrNull`: failure gives `null`
    | IfExists   // `elementIfExists`: failure gives `undefined`
    | Exists     // `hasElement`: success gives `true`, failure `false`

  datatype Action =
    | Invoke(target: Target, member: string, args: seq<Value>)  // outcome passed through unchanged
    | ReturnThis                                               // the chain itself, unchanged
    | Lookup(sentinel: Sentinel, using: Value, value: Value)
    | LookupDisplayed(using: Value, value: Value)              // `find(...).isDisplayed()`, failure gives `false`
    | EachContextElement(member: string, args: seq<Value>)     // one call per context element
    | TextTest(source: Target, search: string)                 // visible text contains `search`
    | PollCondition(expression: Value, timeout: Value, pollInterval: Value)
    | WaitForElement(using: Value, value: Value, timeout: Value)
    | WaitForVisible(using: Value, value: Value, timeout: Value)
    | Opaque(name: string, args: seq<Value>)                  // a session or server read, not modelled

  /** The notices a call issues and the work it hands on. */
  datatype Plan = Plan(notices: seq<Notice>, action: Action)
}

=== FILE: deprecation.dfy ===
/** The one-shot deprecation notifier (`warn` in compat.js). The process-wide
    `warned` table becomes an explicit set threaded through every call, and the
    `/deprecated` publication becomes the list of events a call returns. */
module Deprecation {
  import opened JsValues

  /** The arguments of one `warn(name, replacement, extra)` call; published
      unchanged as the event when the name is new. `replacement` and `extra`
      keep the distinction between `null` and `undefined`. */
  datatype Notice = Notice(name: string, replacement: Value, extra: Value)

  /** The notifier's state after some calls, with the events they published. */
  datatype Notified = Notified(warned: set<string>, events: seq<Notice>)

  /** The names carried by a list of notices. */
  function NamesOf(ns: seq<Notice>): set<string> {
    set n | n in ns :: n.name
  }

  /** No name is published twice in one list of events. */
  predicate DistinctNames(events: seq<Notice>) {
    forall i, j :: 0 <= i < j < |events| ==> events[i].name != events[j].name
  }

  /** The position of the first notice in `ns` that carries `name`. */
  function FirstIndex(ns: seq<Notice>, name: string): (i: nat)
    requires name in NamesOf(ns)
    ensures i < |ns| && ns[i].name == name
    ensures forall j :: 0 <= j < i ==> ns[j].name != name
    decreases |ns|
  {
    if ns[0].name == name then 0
    else
      assert name in NamesOf(ns[1..]) by {
        var n :| n in ns && n.name == name;
        assert n in ns[1..];
      }
      1 + FirstIndex(ns[1..], name)
  }

  /** Each event is the first notice of `ns` carrying its name, passed on
      unchanged, and the events come in the order of those first notices. */
  predicate FirstCallsInOrder(ns: seq<Notice>, events: seq<Notice>) {
    && (forall k :: 0 <= k < |events| ==>
          events[k].name in NamesOf(ns) && events[k] == ns[FirstIndex(ns, events[k].name)])
    && (forall k1, k2 :: 0 <= k1 < k2 < |events| ==>
          FirstIndex(ns, events[k1].name) < FirstIndex(ns, events[k2].name))
  }

  /** One `warn` call: publishes `n` unless its name was already warned. */
  function Warn(warned: set<string>, n: Notice): (r: Notified)
    ensures r.warned == warned + {n.name}
    ensures |r.events| <= 1
    ensures |r.events| == 1 <==> n.name !in warned
    ensures forall e :: e in r.events ==> e == n
  {
    if n.name in warned then Notified(warned, [])
    else Notified(warned + {n.name}, [n])
  }

  /** A sequence of `warn` calls, in order. */
  function WarnAll(warned: set<string>, ns: seq<Notice>): (r: Notified)
    decreases |ns|
    ensures r.warned == warned + NamesOf(ns)
    ensures forall e :: e in r.events ==> e in ns && e.name !in warned
    ensures NamesOf(r.events) == NamesOf(ns) - warned
    ensures DistinctNames(r.events)
    ensures FirstCallsInOrder(ns, r.events)
  {
    if |ns| == 0 then Notified(warned, [])
    else
      var first := Warn(warned, ns[0]);
      var rest := WarnAll(first.warned, ns[1..]);
      NamesOfCons(ns);
      NamesOfConcat(first.events, rest.events);
      FirstCallsCons(ns, first.events, rest.events);
      Notified(rest.warned, first.events + rest.events)
  }

  /** A name the head does not carry is found in the tail, one position later. */
  lemma FirstIndexPastHead(ns: seq<Notice>, name: string)
    requires |ns| > 0 && ns[0].name != name && name in NamesOf(ns[1..])
    ensures name in NamesOf(ns) && FirstIndex(ns, name) == 1 + FirstIndex(ns[1..], name)
  {
    var n :| n in ns[1..] && n.name == name;
    assert n in ns;
  }

  /** Events drawn from the tail that never repeat the head's name keep
      their standing against the whole list, each found one position later. */
  lemma FirstCallsShift(ns: seq<Notice>, rest: seq<Notice>)
    requires |ns| > 0
    requires forall e :: e in rest ==> e.name != ns[0].name
    requires FirstCallsInOrder(ns[1..], rest)
    ensures FirstCallsInOrder(ns, rest)
    ensures forall k :: 0 <= k < |rest| ==> rest[k].name in NamesOf(ns) && FirstIndex(ns, rest[k].name) > 0
  {
    forall k | 0 <= k < |rest|
      ensures rest[k].name in NamesOf(ns) && FirstIndex(ns, rest[k].name) == 1 + FirstIndex(ns[1..], rest[k].name)
    {
      assert rest[k] in rest;
      FirstIndexPastHead(ns, rest[k].name);
    }
  }

  /** Publishing the head notice (or not), then events drawn from the tail
      that never repeat the head's name, keeps first calls in call order. */
  lemma FirstCallsCons(ns: seq<Notice>, head: seq<Notice>, rest: seq<Notice>)
    requires |ns| > 0 && (head == [] || head == [ns[0]])
    requires forall e :: e in rest ==> e.name != ns[0].name
    requires FirstCallsInOrder(ns[1..], rest)
    ensures FirstCallsInOrder(ns, head + rest)
  {
    FirstCallsShift(ns, rest);
    if head != [] {
      var all := head + rest;
      assert ns[0] in ns;
      assert FirstIndex(ns, ns[0].name) == 0;
      assert forall k :: 1 <= k < |all| ==> all[k] == rest[k - 1];
    }
  }

  lemma NamesOfCons(ns: seq<Notice>)
    requires |ns| > 0
    ensures NamesOf(ns) == {ns[0].name} + NamesOf(ns[1..])
  {
    assert forall n :: n in ns <==> n == ns[0] || n in ns[1..];
  }

  lemma NamesOfConcat(a: seq<Notice>, b: seq<Notice>)
    ensures NamesOf(a + b) == NamesOf(a) + NamesOf(b)
  {
  }

  /** Calling `warn` twice for the same name publishes exactly one event if
      the name was new, and none otherwise. */
  lemma WarnTwicePublishesOnce(warned: set<string>, n: Notice)
    ensures var first := Warn(warned, n);
            var second := Warn(first.warned, n);
            |first.events + second.events| == (if n.name in warned then 0 else 1)
            && second.events == []
  {
  }

  /** Of two calls for the same name, the first call's arguments are the ones
      published. */
  lemma FirstCallArgumentsWin(warned: set<string>, a: Notice, b: Notice)
    requires a.name == b.name
    ensures WarnAll(warned, [a, b]).events == if a.name in warned then [] else [a]
  {
    var first := Warn(warned, a);
    assert [a, b][1..] == [b] && [b][1..] == [];
    assert WarnAll(first.warned, [b]).events == [] by {
      assert Warn(first.warned, b).events == [];
    }
  }

  /** Warning one name never changes whether another name counts as warned,
      and the warned set only grows. */
  lemma WarnIsolated(warned: set<string>, n: Notice, other: string)
    requires other != n.name
    ensures other in Warn(warned, n).warned <==> other in warned
    ensures warned <= Warn(warned, n).warned
  {
  }

  /** Replaying the same sequence of `warn` calls publishes nothing: every
      symbol is announced at most once per lifetime of the warned set. */
  lemma ReplayIsSilent(warned: set<string>, ns: seq<Notice>)
    ensures WarnAll(WarnAll(warned, ns).warned, ns).events == []
  {
    var again := WarnAll(WarnAll(warned, ns).warned, ns);
    FirstNameListed(again.events);
  }

  lemma FirstNameListed(events: seq<Notice>)
    ensures |events| > 0 ==> events[0].name in NamesOf(events)
  {
  }
}

=== FILE: fan_out.dfy ===
/** The context forms of `getPageIndex` and `isVisible`: one request for a
    single-element context, or one request per element combined with
    `Promise.all` for a collection. */
module FanOut {
  import opened Outcomes
  import opened JsValues

  /** The command chain's current context. */
  datatype CommandContext = CommandContext(isSingle: bool, elements: seq<Value>)

  /** `Promise.all` over settled answers: every value in order, or a failure.
      Which failure is reported when several elements fail depends on timing
      in JavaScript; here it is the first one in context order. */
  function AllOf(answers: seq<Result<Value, EngineError>>): (r: Result<seq<Value>, EngineError>)
    decreases |answers|
    ensures r.Ok? <==> forall i :: 0 <= i < |answers| ==> answers[i].Ok?
    ensures r.Ok? ==> |r.value| == |answers| && forall i :: 0 <= i < |answers| ==> answers[i] == Ok(r.value[i])
    ensures r.Err? ==> exists i :: 0 <= i < |answers| && answers[i] == Err(r.error)
  {
    if |answers| == 0 then Ok([])
    else
      match answers[0]
      case Err(e) => Err(e)
      case Ok(v) =>
        match AllOf(answers[1..])
        case Err(e) => Err(e)
        case Ok(vs) => Ok([v] + vs)
  }

  /** The outcome of `EachContextElement`, where `answer` is the engine's
      reply for one element. */
  function SettleEach(ctx: CommandContext, answer: Value -> Result<Value, EngineError>): (r: Result<Value, Failure>)
    ensures ctx.isSingle && |ctx.elements| == 0 ==> r == Err(TypeError)
    ensures ctx.isSingle && |ctx.elements| > 0 ==>
      match answer(ctx.elements[0])
      case Ok(v) => r == Ok(v)
      case Err(e) => r == Err(FromEngine(e))
    ensures !ctx.isSingle ==> (r.Ok? <==> forall i :: 0 <= i < |ctx.elements| ==> answer(ctx.elements[i]).Ok?)
    ensures !ctx.isSingle && r.Ok? ==>
      && r.value.Arr?
      && |r.value.items| == |ctx.elements|
      && forall i :: 0 <= i < |ctx.elements| ==> answer(ctx.elements[i]) == Ok(r.value.items[i])
    ensures !ctx.isSingle && r.Err? ==>
      r.error.FromEngine? && exists i :: 0 <= i < |ctx.elements| && answer(ctx.elements[i]) == Err(r.error.cause)
  {
    if ctx.isSingle then
      if |ctx.elements| == 0 then Err(TypeError)
      else
        match answer(ctx.elements[0])
        case Ok(v) => Ok(v)
        case Err(e) => Err(FromEngine(e))
    else
      var answers := seq(|ctx.elements|, i requires 0 <= i < |ctx.elements| => answer(ctx.elements[i]));
      assert forall i :: 0 <= i < |ctx.elements| ==> answers[i] == answer(ctx.elements[i]);
      match AllOf(answers)
      case Ok(vs) => Ok(Arr(vs))
      case Err(e) => Err(FromEngine(e))
  }

  /** A collection context of n elements whose requests all succeed gives an
      n-element array, the i-th entry being the answer for the i-th element. */
  lemma CollectionAnswersInContextOrder(ctx: CommandContext, answer: Value -> Result<Value, EngineError>, i: nat)
    requires !ctx.isSingle
    requires forall j :: 0 <= j < |ctx.elements| ==> answer(ctx.elements[j]).Ok?
    requires i < |ctx.elements|
    ensures SettleEach(ctx, answer).Ok?
    ensures SettleEach(ctx, answer).value.Arr?
    ensures |SettleEach(ctx, answer).value.items| == |ctx.elements|
    ensures SettleEach(ctx, answer).value.items[i] == answer(ctx.elements[i]).value
  {
  }
}

=== FILE: installer.dfy ===
/** `applyTo(prototype)`: every property descriptor of the table is defined
    on the target, replacing whatever the target had under that name. */
module Installer {

  /** The reference meaning of `applyTo`: the table overrides the target. */
  function Override<D>(target: map<string, D>, methods: map<string, D>): map<string, D> {
    target + methods
  }

  /** The `for (var key in methods) Object.defineProperty(...)` loop. */
  method ApplyTo<D>(target: map<string, D>, methods: map<string, D>) returns (r: map<string, D>)
    ensures r.Keys == target.Keys + methods.Keys
    ensures forall k :: k in methods ==> r[k] == methods[k]
    ensures forall k :: k in target && k !in methods ==> r[k] == target[k]
  {
    r := target;
    var pending := methods.Keys;
    while pending != {}
      invariant pending <= methods.Keys
      invariant r.Keys == target.Keys + (methods.Keys - pending)
      invariant forall k :: k in methods && k !in pending ==> r[k] == methods[k]
      invariant forall k :: k in target && (k !in methods || k in pending) ==> r[k] == target[k]
      decreases pending
    {
      var key :| key in pending;
      r := r[key := methods[key]];
      pending := pending - {key};
    }
  }

  /** The loop computes the override, whatever order the keys are taken in. */
  lemma {:induction false} ApplyToIsOverride<D>(target: map<string, D>, methods: map<string, D>, r: map<string, D>)
    requires r.Keys == target.Keys + methods.Keys
    requires forall k :: k in methods ==> r[k] == methods[k]
    requires forall k :: k in target && k !in methods ==> r[k] == target[k]
    ensures r == Override(target, methods)
  {
  }

  /** Applying the table twice leaves the target as applying it once. */
  lemma OverrideIdempotent<D>(target: map<string, D>, methods: map<string, D>)
    ensures Override(Override(target, methods), methods) == Override(target, methods)
  {
  }
}

=== FILE: js_values.dfy ===
/** The JavaScript values that the legacy layer inspects. The layer never looks
    inside objects except for the `elementId` field, which is the only thing
    that tells an element handle apart from a plain value. */
module JsValues {

  /** Numbers are integers here: NaN, infinities and fractions are not modelled. */
  datatype Value =
    | Undefined
    | Null
    | Bool(b: bool)
    | Num(n: int)
    | Str(s: string)
    | Arr(items: seq<Value>)
    | Obj(elementId: Value)   // any object; a plain object has `Obj(Undefined)`

  /** JavaScript truthiness. */
  predicate Truthy(v: Value) {
    match v
    case Undefined => false
    case Null => false
    case Bool(b) => b
    case Num(n) => n != 0
    case Str(s) => s != ""
    case Arr(_) => true
    case Obj(_) => true
  }

  /** `a && b`. */
  function And(a: Value, b: Value): (r: Value)
    ensures !Truthy(a) ==> r == a
    ensures Truthy(a) ==> r == b
  {
    if Truthy(a) then b else a
  }

  /** Reading the `elementId` property: only objects carry one, every other
      truthy value reads as undefined. */
  function ElementIdOf(v: Value): Value {
    if v.Obj? then v.elementId else Undefined
  }

  /** The element discriminator `v && v.elementId`, in its truthy reading:
      only an object whose `elementId` is truthy passes. */
  predicate IsElement(v: Value)
    ensures IsElement(v) <==> Truthy(And(v, ElementIdOf(v)))
    ensures IsElement(v) ==> Truthy(v) && v.Obj?
  {
    v.Obj? && Truthy(v.elementId)
  }

  /** `typeof v === 'number'`. */
  predicate IsNumber(v: Value) {
    v.Num?
  }

  /** `arguments[i]`: undefined past the end of the argument list. */
  function Arg(args: seq<Value>, i: nat): Value {
    if i < |args| then args[i] else Undefined
  }

  /** `a || b`. */
  function Or(a: Value, b: Value): (r: Value)
    ensures Truthy(a) ==> r == a
    ensures !Truthy(a) ==> r == b
  {
    if Truthy(a) then a else b
  }

  function DigitChar(d: nat): (c: char)
    requires d < 10
    ensures '0' <= c <= '9'
  {
    (48 + d) as char
  }

  /** The value of a decimal digit. */
  function DigitValue(c: char): nat
    requires '0' <= c <= '9'
  {
    c as int - 48
  }

  /** Decimal rendering of a natural number, most significant digit first,
      without leading zeros. */
  function NatToString(n: nat): (r: string)
    decreases n
    ensures |r| > 0 && forall i :: 0 <= i < |r| ==> '0' <= r[i] <= '9'
    ensures |r| > 1 ==> r[0] != '0'
  {
    if n < 10 then [DigitChar(n)] else NatToString(n / 10) + [DigitChar(n % 10)]
  }

  /** Reading a string of decimal digits back as a number. */
  function ParseDigits(s: string): nat
    requires forall i :: 0 <= i < |s| ==> '0' <= s[i] <= '9'
    decreases |s|
  {
    if |s| == 0 then 0 else ParseDigits(s[..|s| - 1]) * 10 + DigitValue(s[|s| - 1])
  }

  /** Reading the rendered digits back gives the number: the rendering loses nothing. */
  lemma {:induction false} NatToStringRoundTrip(n: nat)
    ensures ParseDigits(NatToString(n)) == n
    decreases n
  {
    var r := NatToString(n);
    if n >= 10 {
      NatToStringRoundTrip(n / 10);
      assert r[..|r| - 1] == NatToString(n / 10);
    }
  }

  /** `String(v)` as used when a non-string is handed to `indexOf`. Arrays are
      joined with commas, holes of `null`/`undefined` becoming empty. */
  function ToJsString(v: Value): (r: string)
    decreases v, 1
    ensures v.Str? ==> r == v.s
    ensures v.Num? ==> |r| > 0 && (r[0] == '-' <==> v.n < 0)
    ensures v.Num? && v.n < 0 ==> r[1..] == NatToString(-v.n)
    ensures v.Num? && v.n >= 0 ==> r == NatToString(v.n)
  {
    match v
    case Undefined => "undefined"
    case Null => "null"
    case Bool(b) => if b then "true" else "false"
    case Num(n) => if n < 0 then "-" + NatToString(-n) else NatToString(n)
    case Str(s) => s
    case Arr(items) => JoinFrom(items, 0)
    case Obj(_) => "[object Object]"
  }

  /** A number's string form reads back as the number. */
  lemma NumberStringRoundTrip(n: int)
    ensures var r := ToJsString(Num(n));
            if n < 0 then r[0] == '-' && ParseDigits(r[1..]) == -n else ParseDigits(r) == n
  {
    if n < 0 {
      NatToStringRoundTrip(-n);
    } else {
      NatToStringRoundTrip(n);
    }
  }

  function JoinFrom(items: seq<Value>, i: nat): string
    requires i <= |items|
    decreases Arr(items), 0, |items| - i
  {
    if i == |items| then ""
    else
      var part := if items[i].Undefined? || items[i].Null? then "" else ToJsString(items[i]);
      (if i == 0 then "" else ",") + part + JoinFrom(items, i + 1)
  }
}

=== FILE: legacy.dfy ===
/** The behaviour of each legacy method of compat.js as a Plan: the notices it
    issues and the work it hands on. Plans depend on the arguments only; the
    warned set is threaded separately (Registry.Run). */
module Legacy {
  import opened Outcomes
  import opened JsValues
  import opened Deprecation
  import opened Calls

  /** `'Command#' + name`. */
  function Cmd(name: string): string {
    "Command#" + name
  }

  // ---------------------------------------------------------------------
  // Notice texts and scripts, kept as named constants

  const ElementFallbackPrefix := ", or Command#find then Command#then(function (element) { return element."
  const GetValueElementReplacement :=
    "find then Command#getAttribute('value'), or Command#find then "
    + "Command#then(function (element) { return element.getAttribute('value'); }"
  const GetValueReplacement := "find then Command#getAttribute('value')"
  const NoOpRemark := "This command is not part of any specification. This command is a no-op."
  const NotSpecifiedRemark := "This command is not part of any specification."
  const UploadFileReplacement := "type to type a file path into a file upload form control"
  const IsVisibleRemark :=
    "This command is implemented using Command#isDisplayed, "
    + "which may not match the prior behaviour."
  const ImplicitTimeoutRemark :=
    "This command is implemented using implicit timeouts, "
    + "which may not match the prior behaviour."
  const PartialTimeoutRemark :=
    "This command is partially implemented using implicit timeouts, "
    + "which may not match the prior behaviour."
  const ConditionReplacement := "executeAsync or leadfoot/helpers/pollUntil"
  const TextPresentReplacement := "getVisibleText and a promise helper"
  const WaitForElementReplacement := "setFindTimeout and Command#find"
  const EvalReplacement := "execute with a return call"
  const EvalScript := "return eval(arguments[0]);"
  const NewWindowScript := "window.open(arguments[0], arguments[1]);"
  const WindowNameScript := "return window.name;"
  const LocationInViewRemark :=
    "This command is defined in the spec as internal and should never have been exposed to end users. "
    + "The returned value of this command will be the same as Command#getPosition, which may not match "
    + "prior behaviour."
  const LookupReplacement := "find and Command#always, or Command#findAll"
  const HasElementReplacement := "find and Command#then(exists, doesNotExist)"

  // ---------------------------------------------------------------------
  // deprecate, deprecateElementSig, deprecateElementAndStandardSig

  /** `deprecate(from, to)`: notify, then call `this[to]` with the same arguments. */
  function DeprecatePlan(from: string, to: string, args: seq<Value>): (p: Plan)
    ensures |p.notices| == 1 && p.notices[0].name == Cmd(from)
    ensures p.notices[0].replacement == Str(Cmd(to))
    ensures p.action == Invoke(Context, to, args)
  {
    Plan([Notice(Cmd(from), Str(Cmd(to)), Undefined)], Invoke(Context, to, args))
  }

  /** `toMethod || fromMethod`. */
  function ElementMethod(from: string, to: Option<string>): string {
    if to.Some? && to.value != "" then to.value else from
  }

  /** The notice for the element-first signature of `from`. */
  function ElementNotice(from: string, to: Option<string>): Notice {
    Notice(
      Cmd(from + "(element)"),
      Str(Cmd("find then Command#" + from + ElementFallbackPrefix + ElementMethod(from, to) + "(); }")),
      Undefined)
  }

  /** `deprecateElementSig(from, to, fn)`; `fallback` is the plan `fn` makes
      for the same arguments, when `fn` is given. On the element path the
      element's method runs inside `new Command(this, ...)` with that new
      command, not the element, as its receiver. */
  function ElementSigPlan(from: string, to: Option<string>, fallback: Option<Plan>, args: seq<Value>): (p: Plan)
    ensures IsElement(Arg(args, 0)) ==>
      && p.notices == [ElementNotice(from, to)]
      && p.action.Invoke?
      && p.action.target == ElementMethodOnChain(args[0])
      && p.action.member == ElementMethod(from, to)
      && [args[0]] + p.action.args == args
    ensures !IsElement(Arg(args, 0)) && fallback.Some? ==> p == fallback.value
    ensures !IsElement(Arg(args, 0)) && fallback.None? ==>
      p.notices == [] && p.action == Invoke(Prototype, from, args)
  {
    if IsElement(Arg(args, 0)) then
      Plan([ElementNotice(from, to)], Invoke(ElementMethodOnChain(args[0]), ElementMethod(from, to), args[1..]))
    else if fallback.Some? then
      fallback.value
    else
      Plan([], Invoke(Prototype, from, args))
  }

  /** The element path loses no argument: the element followed by the
      forwarded arguments is exactly the caller's list, and the element's method
      is used exactly when the first argument is an element (when `fn` is absent
      or a plain deprecation onto the context). */
  lemma ElementSigUsesElementIff(from: string, to: Option<string>, fnTo: Option<string>, args: seq<Value>)
    ensures var fallback := if fnTo.Some? then Some(DeprecatePlan(from, fnTo.value, args)) else None;
            var p := ElementSigPlan(from, to, fallback, args);
            && (p.action.Invoke? && p.action.target.ElementMethodOnChain? <==> IsElement(Arg(args, 0)))
            && (p.action.Invoke? && p.action.target.ElementMethodOnChain? ==> [p.action.target.element] + p.action.args == args)
  {
  }

  /** `deprecateElementAndStandardSig(from, to)`: for a non-element first
      argument the call is exactly `deprecate(from, to)`: one notice for `from`,
      and `this[to]` with the caller's arguments unchanged. */
  lemma StandardSigIsPureDelegate(from: string, to: string, args: seq<Value>)
    requires !IsElement(Arg(args, 0))
    ensures var p := ElementSigPlan(from, Some(to), Some(DeprecatePlan(from, to, args)), args);
            p.action == Invoke(Context, to, args) && |p.notices| == 1 && p.notices[0].name == Cmd(from)
  {
  }

  // ---------------------------------------------------------------------
  // setWindowSize / setWindowPosition

  /** The legacy `(width, height, handle)` shape: three arguments, the first a number. */
  predicate IsLegacyOrder(args: seq<Value>) {
    |args| == 3 && IsNumber(args[0])
  }

  /** `args.unshift(args.pop())` on a non-empty list. */
  function LastToFront(args: seq<Value>): seq<Value>
    requires |args| > 0
  {
    [args[|args| - 1]] + args[..|args| - 1]
  }

  /** The argument list handed to the current method. */
  function WindowArgs(args: seq<Value>): (r: seq<Value>)
    ensures |r| == |args| && multiset(r) == multiset(args)
    ensures IsLegacyOrder(args) ==> r == [args[2], args[0], args[1]]
    ensures !IsLegacyOrder(args) ==> r == args
  {
    if IsLegacyOrder(args) then
      var r := LastToFront(args);
      assert args == [args[0], args[1], args[2]];
      assert r == [args[2], args[0], args[1]];
      RotationKeepsValues(args[0], args[1], args[2]);
      r
    else args
  }

  lemma RotationKeepsValues(a: Value, b: Value, c: Value)
    ensures multiset([c, a, b]) == multiset([a, b, c])
  {
  }

  /** The rotation is undone by moving the front argument back to the end. */
  lemma WindowArgsRoundTrip(args: seq<Value>)
    requires IsLegacyOrder(args)
    ensures var r := WindowArgs(args); r[1..] + [r[0]] == args
  {
  }

  /** Shared body of setWindowSize and setWindowPosition. */
  function WindowPlan(member: string, legacySig: string, currentSig: string, args: seq<Value>): (p: Plan)
    ensures |p.notices| <= 1
    ensures |p.notices| == 1 <==> IsLegacyOrder(args)
    ensures p.action == Invoke(Prototype, member, WindowArgs(args))
  {
    var notices := if IsLegacyOrder(args) then [Notice(Cmd(legacySig), Str(Cmd(currentSig)), Undefined)] else [];
    Plan(notices, Invoke(Prototype, member, WindowArgs(args)))
  }

  function SetWindowSizePlan(args: seq<Value>): Plan {
    WindowPlan("setWindowSize", "setWindowSize(width, height, handle)", "setWindowSize(handle, width, height)", args)
  }

  function SetWindowPositionPlan(args: seq<Value>): Plan {
    WindowPlan("setWindowPosition", "setWindowPosition(x, y, handle)", "setWindowPosition(handle, x, y)", args)
  }

  /** `setWindowSize(w, h, handle)` and `setWindowSize(handle, w, h)` reach the
      current method with the same arguments; only the legacy shape notifies. */
  lemma LegacyWindowOrderAgrees(w: Value, h: Value, handle: Value)
    requires IsNumber(w) && !IsNumber(handle)
    ensures SetWindowSizePlan([w, h, handle]).action == SetWindowSizePlan([handle, w, h]).action
    ensures SetWindowPositionPlan([w, h, handle]).action == SetWindowPositionPlan([handle, w, h]).action
    ensures |SetWindowSizePlan([w, h, handle]).notices| == 1 && SetWindowSizePlan([handle, w, h]).notices == []
  {
  }

  // ---------------------------------------------------------------------
  // textPresent, getValue, equalsElement, getPageIndex, isVisible

  /** `textPresent(searchText, element)`: the element is used whenever it is
      truthy (no `elementId` check), and the search text is converted to a
      string as `indexOf` does. */
  function TextPresentPlan(args: seq<Value>): (p: Plan)
    ensures p.notices == [Notice(Cmd("textPresent"), Str(Cmd(TextPresentReplacement)), Undefined)]
    ensures p.action.TextTest?
    ensures p.action.source.Handle? <==> Truthy(Arg(args, 1))
    ensures p.action.source.Handle? ==> p.action.source.element == args[1]
    ensures !Truthy(Arg(args, 1)) ==> p.action.source == Context
    ensures p.action.search == ToJsString(Arg(args, 0))
  {
    var source := if Truthy(Arg(args, 1)) then Handle(args[1]) else Context;
    Plan([Notice(Cmd("textPresent"), Str(Cmd(TextPresentReplacement)), Undefined)],
         TextTest(source, ToJsString(Arg(args, 0))))
  }

  /** `getValue(element?)`: the `value` attribute of the handle, or of the context. */
  function GetValuePlan(args: seq<Value>): (p: Plan)
    ensures p.action.Invoke? && p.action.member == "getAttribute" && p.action.args == [Str("value")]
    ensures p.action.target.Handle? <==> IsElement(Arg(args, 0))
    ensures p.action.target.Handle? ==> p.action.target.element == args[0]
    ensures !p.action.target.Handle? ==> p.action.target == Context
    ensures |p.notices| == 1
    ensures p.notices[0].name == Cmd("getValue(element)") <==> IsElement(Arg(args, 0))
  {
    if IsElement(Arg(args, 0)) then
      Plan([Notice(Cmd("getValue(element)"),
                   Str(Cmd(GetValueElementReplacement)),
                   Undefined)],
           Invoke(Handle(args[0]), "getAttribute", [Str("value")]))
    else
      Plan([Notice(Cmd("getValue"), Str(Cmd(GetValueReplacement)), Undefined)],
           Invoke(Context, "getAttribute", [Str("value")]))
  }

  /** `getValue(element)` and the element form of `getAttribute(element, 'value')`
      pick the same method of the same element with the same argument, but
      only `getValue` calls it on the element: `getAttribute`'s element path
      applies it to the new command. */
  lemma GetValueReceiverDiffersFromGetAttribute(el: Value)
    requires IsElement(el)
    ensures var v := GetValuePlan([el]).action;
            var g := ElementSigPlan("getAttribute", None, None, [el, Str("value")]).action;
            && v.Invoke? && g.Invoke?
            && v.member == g.member && v.args == g.args
            && v.target == Handle(el) && g.target == ElementMethodOnChain(el)
            && v.target != g.target
  {
    assert Arg([el], 0) == el && Arg([el, Str("value")], 0) == el;
    assert [el, Str("value")][1..] == [Str("value")];
  }

  /** `equalsElement(element, other?)`: handle-to-handle equality when `other`
      is an element, otherwise the context compared with `element`. */
  function EqualsElementPlan(args: seq<Value>): (p: Plan)
    ensures p.action.Invoke? && p.action.member == "equals" && |p.action.args| == 1
    ensures IsElement(Arg(args, 1)) ==> p.action.target == Handle(args[0]) && p.action.args == [args[1]]
    ensures !IsElement(Arg(args, 1)) ==> p.action.target == Context && p.action.args == [Arg(args, 0)]
    ensures |p.notices| == 1
    ensures p.notices[0].name == Cmd("equalsElement(element, other)") <==> IsElement(Arg(args, 1))
  {
    if IsElement(Arg(args, 1)) then
      Plan([Notice(Cmd("equalsElement(element, other)"), Str("element.equals(other)"), Undefined)],
           Invoke(Handle(args[0]), "equals", [args[1]]))
    else
      Plan([Notice(Cmd("equalsElement"), Str(Cmd("equals")), Undefined)],
           Invoke(Context, "equals", [Arg(args, 0)]))
  }

  /** A non-element `other` is ignored: the call is the one-argument form. */
  lemma EqualsElementIgnoresNonElementOther(a: Value, b: Value)
    requires !IsElement(b)
    ensures EqualsElementPlan([a, b]) == EqualsElementPlan([a])
  {
  }

  /** `getPageIndex(element?)`: the internal `pageIndex` property of the handle,
      or of every context element. The notice is issued on both paths. */
  function GetPageIndexPlan(args: seq<Value>): (p: Plan)
    ensures p.notices == [Notice(Cmd("getPageIndex"), Null, Str(NotSpecifiedRemark))]
    ensures p.action.Invoke? <==> IsElement(Arg(args, 0))
    ensures p.action.Invoke? ==> p.action == Invoke(Handle(args[0]), "_get", [Str("pageIndex")])
    ensures !p.action.Invoke? ==> p.action == EachContextElement("_get", [Str("pageIndex")])
  {
    var notice := Notice(Cmd("getPageIndex"), Null, Str(NotSpecifiedRemark));
    if IsElement(Arg(args, 0)) then
      Plan([notice], Invoke(Handle(args[0]), "_get", [Str("pageIndex")]))
    else
      Plan([notice], EachContextElement("_get", [Str("pageIndex")]))
  }

  const IsVisibleNotice := Notice(
    Cmd("isVisible"), Str(Cmd("isDisplayed")),
    Str(IsVisibleRemark))

  /** `isVisible(...)`, dispatched on arity: `(using, value)` looks up and
      checks, `(element)` checks the handle, anything else checks the context. */
  function IsVisiblePlan(args: seq<Value>): (p: Plan)
    ensures p.notices == [IsVisibleNotice]
    ensures p.action.LookupDisplayed? <==> |args| == 2
    ensures p.action.LookupDisplayed? ==> p.action.using == args[0] && p.action.value == args[1]
    ensures p.action.Invoke? <==> |args| == 1 && IsElement(args[0])
    ensures p.action.Invoke? ==> p.action == Invoke(Handle(args[0]), "isDisplayed", [])
    ensures !p.action.LookupDisplayed? && !p.action.Invoke? ==> p.action == EachContextElement("isDisplayed", [])
  {
    if |args| == 2 then
      Plan([IsVisibleNotice], LookupDisplayed(args[0], args[1]))
    else if |args| == 1 && IsElement(args[0]) then
      Plan([IsVisibleNotice], Invoke(Handle(args[0]), "isDisplayed", []))
    else
      Plan([IsVisibleNotice], EachContextElement("isDisplayed", []))
  }

  /** A single non-element argument is ignored: it behaves like no argument. */
  lemma IsVisibleNonElementFallsThrough(v: Value)
    requires !IsElement(v)
    ensures IsVisiblePlan([v]) == IsVisiblePlan([])
  {
  }

  // ---------------------------------------------------------------------
  // Lookups with sentinels, scoped waits, condition polling

  /** `elementOrNull`, `elementIfExists` and `hasElement`: a lookup with `(using, value)`. */
  function LookupPlan(name: string, replacement: string, sentinel: Sentinel, args: seq<Value>): (p: Plan)
    ensures p.notices == [Notice(Cmd(name), Str(Cmd(replacement)), Undefined)]
    ensures p.action == Lookup(sentinel, Arg(args, 0), Arg(args, 1))
  {
    Plan([Notice(Cmd(name), Str(Cmd(replacement)), Undefined)], Lookup(sentinel, Arg(args, 0), Arg(args, 1)))
  }

  /** `waitForElement(using, value, timeout)`: notify, then the scoped wait. */
  function WaitForElementPlan(args: seq<Value>): (p: Plan)
    ensures |p.notices| == 1 && p.notices[0].name == Cmd("waitForElement")
    ensures p.action.WaitForElement? && [p.action.using, p.action.value, p.action.timeout] == [Arg(args, 0), Arg(args, 1), Arg(args, 2)]
  {
    Plan([Notice(Cmd("waitForElement"), Str(Cmd(WaitForElementReplacement)),
                 Str(ImplicitTimeoutRemark))],
         WaitForElement(Arg(args, 0), Arg(args, 1), Arg(args, 2)))
  }

  /** `waitForVisible(using, value, timeout)`: notify, then the scoped wait. */
  function WaitForVisiblePlan(args: seq<Value>): (p: Plan)
    ensures |p.notices| == 1 && p.notices[0].name == Cmd("waitForVisible") && p.notices[0].replacement == Null
    ensures p.action.WaitForVisible? && [p.action.using, p.action.value, p.action.timeout] == [Arg(args, 0), Arg(args, 1), Arg(args, 2)]
  {
    Plan([Notice(Cmd("waitForVisible"), Null,
                 Str(PartialTimeoutRemark))],
         WaitForVisible(Arg(args, 0), Arg(args, 1), Arg(args, 2)))
  }

  const DefaultConditionTimeout := 1000
  const DefaultPollInterval := 100

  /** `waitForCondition` / `waitForConditionInBrowser`: `timeout || 1000` and
      `pollInterval || 100`, so an absent, zero or otherwise falsy value takes
      the default and a truthy one is kept. */
  function ConditionPlan(name: string, args: seq<Value>): (p: Plan)
    ensures p.action.PollCondition? && p.action.expression == Arg(args, 0)
    ensures Truthy(p.action.timeout) && Truthy(p.action.pollInterval)
    ensures Truthy(Arg(args, 1)) <==> p.action.timeout == Arg(args, 1)
    ensures !Truthy(Arg(args, 1)) ==> p.action.timeout == Num(DefaultConditionTimeout)
    ensures Truthy(Arg(args, 2)) <==> p.action.pollInterval == Arg(args, 2)
    ensures !Truthy(Arg(args, 2)) ==> p.action.pollInterval == Num(DefaultPollInterval)
    ensures |p.notices| == 1 && p.notices[0].name == Cmd(name)
  {
    var timeout := Or(Arg(args, 1), Num(DefaultConditionTimeout));
    var pollInterval := Or(Arg(args, 2), Num(DefaultPollInterval));
    Plan([Notice(Cmd(name), Str(Cmd(ConditionReplacement)), Undefined)],
         PollCondition(Arg(args, 0), timeout, pollInterval))
  }

  /** The defaults are a fixed point: planning again with the timeout and
      poll interval already filled in gives the same call. */
  lemma ConditionDefaultsSettle(name: string, args: seq<Value>)
    ensures var p := ConditionPlan(name, args);
            ConditionPlan(name, [Arg(args, 0), p.action.timeout, p.action.pollInterval]) == p
  {
  }

  // ---------------------------------------------------------------------
  // No-ops and the remaining simple forwards

  /** `init`, `setHTTPInactivityTimeout`, `uploadFile`, `sauceJobUpdate`,
      `sauceJobStatus`: notify and return the chain itself, whatever the arguments. */
  function NoOpPlan(name: string): (p: Plan)
    ensures p.action == ReturnThis
    ensures |p.notices| == 1 && p.notices[0].name == Cmd(name)
  {
    var notSpecified := Str(NoOpRemark);
    var notice :=
      if name == "uploadFile" then
        Notice(Cmd(name), Str(Cmd(UploadFileReplacement)), notSpecified)
      else if name == "sauceJobUpdate" || name == "sauceJobStatus" then
        Notice(Cmd(name), Null, notSpecified)
      else
        Notice(Cmd(name), Undefined, Undefined);
    Plan([notice], ReturnThis)
  }

  /** `elementsById(value)`: `findAll('id', value)`. */
  function ElementsByIdPlan(args: seq<Value>): (p: Plan)
    ensures p.action == Invoke(Context, "findAll", [Str("id"), Arg(args, 0)])
    ensures |p.notices| == 1 && p.notices[0].name == Cmd("elementsById")
  {
    Plan([Notice(Cmd("elementsById"), Str(Cmd("findById")), Undefined)],
         Invoke(Context, "findAll", [Str("id"), Arg(args, 0)]))
  }

  /** Only the first argument reaches `findAll('id', ...)`: anything after it
      is dropped. */
  lemma ElementsByIdReadsFirstArgument(args: seq<Value>)
    ensures ElementsByIdPlan(args) == ElementsByIdPlan([Arg(args, 0)])
  {
    assert Arg([Arg(args, 0)], 0) == Arg(args, 0);
  }

  /** `getLocationInView(...)`: `getPosition` with the same arguments. */
  function GetLocationInViewPlan(args: seq<Value>): (p: Plan)
    ensures p.action == Invoke(Context, "getPosition", args)
    ensures |p.notices| == 1 && p.notices[0].name == Cmd("getLocationInView")
  {
    Plan([Notice(Cmd("getLocationInView"), Str(Cmd("getPosition")), Str(LocationInViewRemark))],
         Invoke(Context, "getPosition", args))
  }

  /** `getLocationInView` is `deprecate('getLocationInView', 'getPosition')`
      with a remark added to its notice: the same name and replacement, and
      the same call. */
  lemma GetLocationInViewIsDeprecate(args: seq<Value>)
    ensures var d := DeprecatePlan("getLocationInView", "getPosition", args);
            GetLocationInViewPlan(args) == Plan([d.notices[0].(extra := Str(LocationInViewRemark))], d.action)
  {
  }

  // ---------------------------------------------------------------------
  // Session properties and script-based entries

  /** `sessionID`, `status`, `sessions`, `sessionCapabilities`,
      `altSessionCapabilities`, `getSessionId`, `getSessionID`: notify, then
      read session or server state, which is not modelled. */
  function SessionPlan(name: string, replacement: Value, args: seq<Value>): (p: Plan)
    ensures p.notices == [Notice(Cmd(name), replacement, Undefined)]
    ensures p.action == Opaque(name, args)
  {
    Plan([Notice(Cmd(name), replacement, Undefined)], Opaque(name, args))
  }

  /** `eval(code)` and `safeEval(code)`: notify, then `execute` a script that
      evaluates the code, passed as the script's only argument. */
  function EvalPlan(name: string, args: seq<Value>): (p: Plan)
    ensures p.notices == [Notice(Cmd(name), Str(Cmd(EvalReplacement)), Undefined)]
    ensures p.action.Invoke? && p.action.target == Context && p.action.member == "execute"
    ensures |p.action.args| == 2 && p.action.args[1] == Arr([Arg(args, 0)])
  {
    Plan([Notice(Cmd(name), Str(Cmd(EvalReplacement)), Undefined)],
         Invoke(Context, "execute", [Str(EvalScript), Arr([Arg(args, 0)])]))
  }

  /** `safeEval` is no safer than `eval`: both hand the engine the same call,
      and only the notice's name tells them apart. */
  lemma SafeEvalIsEval(args: seq<Value>)
    ensures EvalPlan("safeEval", args).action == EvalPlan("eval", args).action
    ensures EvalPlan("safeEval", args).notices[0].name != EvalPlan("eval", args).notices[0].name
  {
    assert Cmd("safeEval")[8] != Cmd("eval")[8];
  }

  /** `newWindow(url, name)`: notify, then `execute` a `window.open` script
      with the URL and the name as its arguments. */
  function NewWindowPlan(args: seq<Value>): (p: Plan)
    ensures p.notices == [Notice(Cmd("newWindow"), Str(Cmd("execute")), Undefined)]
    ensures p.action.Invoke? && p.action.target == Context && p.action.member == "execute"
    ensures |p.action.args| == 2 && p.action.args[1] == Arr([Arg(args, 0), Arg(args, 1)])
  {
    Plan([Notice(Cmd("newWindow"), Str(Cmd("execute")), Undefined)],
         Invoke(Context, "execute", [Str(NewWindowScript), Arr([Arg(args, 0), Arg(args, 1)])]))
  }

  /** Only `url` and `name` reach the script; further arguments are dropped. */
  lemma NewWindowReadsTwoArguments(args: seq<Value>)
    ensures NewWindowPlan(args) == NewWindowPlan([Arg(args, 0), Arg(args, 1)])
  {
    assert Arg([Arg(args, 0), Arg(args, 1)], 0) == Arg(args, 0);
    assert Arg([Arg(args, 0), Arg(args, 1)], 1) == Arg(args, 1);
  }

  /** `windowName()`: notify, then `execute` a script reading `window.name`,
      with no script arguments; the caller's arguments are ignored. */
  function WindowNamePlan(args: seq<Value>): (p: Plan)
    ensures p.notices == [Notice(Cmd("windowName"), Str(Cmd("execute")), Undefined)]
    ensures p.action.Invoke? && p.action.target == Context && p.action.member == "execute"
    ensures |p.action.args| == 1
  {
    Plan([Notice(Cmd("windowName"), Str(Cmd("execute")), Undefined)],
         Invoke(Context, "execute", [Str(WindowNameScript)]))
  }

  /** Whatever the caller passes, `windowName` makes the same call. */
  lemma WindowNameIgnoresArguments(a: seq<Value>, b: seq<Value>)
    ensures WindowNamePlan(a) == WindowNamePlan(b)
  {
  }
}

=== FILE: outcomes.dfy ===
/** Option and Result, plus the two error types the compatibility layer deals in:
    rejections coming from the automation engine, and the failures the layer
    itself delivers to its callers. */
module Outcomes {

  datatype Option<+T> = None | Some(value: T)

  datatype Result<+T, +E> = Ok(value: T) | Err(error: E)

  /** A rejection produced by the engine (a failed lookup, a failed attribute
      request, ...). Its content is opaque to this layer. */
  datatype EngineError = EngineError(detail: string)

  /** What a legacy call can fail with once it has settled. */
  datatype Failure =
    | FromEngine(cause: EngineError)   // an engine rejection passed through unchanged
    | NotVisible                       // `Error("Element didn't become visible")`
    | TypeError                        // reading `context[0]` of an empty context, or calling
                                       // a method of a value that is not an object
}

=== FILE: registry.dfy ===
/** The `methods` table of compat.js: each legacy name with the kind of
    behaviour behind it, and the interpretation of a behaviour as a Plan. */
module Registry {
  import opened Outcomes
  import opened JsValues
  import opened Deprecation
  import opened Calls
  import opened Legacy

  /** The five shorthands generated per locator strategy. */
  datatype ShorthandKind = OrNull | IfExists | Has | WaitElement | WaitVisible

  datatype Behavior =
    | Deprecate(from: string, to: string)                                  // `deprecate(from, to)`
    | ElementSig(from: string, toMethod: Option<string>, fn: Option<Behavior>) // `deprecateElementSig(from, to, fn)`
    | Custom(entry: CustomKind)                                             // a hand-written entry
    | Shorthand(kind: ShorthandKind, using: string)                        // a generated strategy shorthand

  /** The hand-written entries of the table. */
  datatype CustomKind =
    | NoOpEntry(name: string)        // init, setHTTPInactivityTimeout, uploadFile, sauceJobUpdate, sauceJobStatus
    | SetWindowSizeEntry
    | SetWindowPositionEntry
    | TextPresentEntry
    | GetValueEntry
    | EqualsElementEntry
    | GetPageIndexEntry
    | IsVisibleEntry
    | ConditionEntry(name: string)   // waitForCondition, waitForConditionInBrowser
    | ElementOrNullEntry
    | ElementIfExistsEntry
    | HasElementEntry
    | WaitForElementEntry
    | WaitForVisibleEntry
    | ElementsByIdEntry
    | GetLocationInViewEntry
    | SessionEntry(name: string, replacement: Value)  // session and server reads
    | EvalEntry(name: string)        // eval, safeEval
    | NewWindowEntry
    | WindowNameEntry

  /** The table key a hand-written entry is filed under. */
  function EntryName(c: CustomKind): string {
    match c
    case NoOpEntry(name) => name
    case SetWindowSizeEntry => "setWindowSize"
    case SetWindowPositionEntry => "setWindowPosition"
    case TextPresentEntry => "textPresent"
    case GetValueEntry => "getValue"
    case EqualsElementEntry => "equalsElement"
    case GetPageIndexEntry => "getPageIndex"
    case IsVisibleEntry => "isVisible"
    case ConditionEntry(name) => name
    case ElementOrNullEntry => "elementOrNull"
    case ElementIfExistsEntry => "elementIfExists"
    case HasElementEntry => "hasElement"
    case WaitForElementEntry => "waitForElement"
    case WaitForVisibleEntry => "waitForVisible"
    case ElementsByIdEntry => "elementsById"
    case GetLocationInViewEntry => "getLocationInView"
    case SessionEntry(name, _) => name
    case EvalEntry(name) => name
    case NewWindowEntry => "newWindow"
    case WindowNameEntry => "windowName"
  }

  /** A property descriptor: a method, or the one accessor (`sessionID`). */
  datatype Descriptor = Method(behavior: Behavior) | Getter(behavior: Behavior)

  /** `deprecateElementAndStandardSig(from, to)`. */
  function ElementAndStandardSig(from: string, to: string): Behavior {
    ElementSig(from, Some(to), Some(Deprecate(from, to)))
  }

  /** The compat method a shorthand calls on the chain. */
  function ShorthandTarget(kind: ShorthandKind): CustomKind {
    match kind
    case OrNull => ElementOrNullEntry
    case IfExists => ElementIfExistsEntry
    case Has => HasElementEntry
    case WaitElement => WaitForElementEntry
    case WaitVisible => WaitForVisibleEntry
  }

  /** A shorthand `(value)` or `(value, timeout)`: `this.<generic>(using, value[, timeout])`, with no notice of its own. */
  function ShorthandPlan(kind: ShorthandKind, using: string, args: seq<Value>): (p: Plan)
    ensures p.notices == []
    ensures p.action.Invoke? && p.action.target == Context && p.action.member == EntryName(ShorthandTarget(kind))
    ensures |p.action.args| >= 2 && p.action.args[0] == Str(using) && p.action.args[1] == Arg(args, 0)
    ensures kind.WaitElement? || kind.WaitVisible? <==> |p.action.args| == 3
  {
    var forwarded :=
      if kind.WaitElement? || kind.WaitVisible? then [Str(using), Arg(args, 0), Arg(args, 1)]
      else [Str(using), Arg(args, 0)];
    Plan([], Invoke(Context, EntryName(ShorthandTarget(kind)), forwarded))
  }

  /** The hand-written entries. Every one issues its notice on every call,
      except the two window methods, which notify only for the legacy order. */
  function CustomPlan(c: CustomKind, args: seq<Value>): (p: Plan)
    ensures |p.notices| == if (c.SetWindowSizeEntry? || c.SetWindowPositionEntry?) && !IsLegacyOrder(args) then 0 else 1
  {
    match c
    case NoOpEntry(name) => NoOpPlan(name)
    case SetWindowSizeEntry => SetWindowSizePlan(args)
    case SetWindowPositionEntry => SetWindowPositionPlan(args)
    case TextPresentEntry => TextPresentPlan(args)
    case GetValueEntry => GetValuePlan(args)
    case EqualsElementEntry => EqualsElementPlan(args)
    case GetPageIndexEntry => GetPageIndexPlan(args)
    case IsVisibleEntry => IsVisiblePlan(args)
    case ConditionEntry(name) => ConditionPlan(name, args)
    case ElementOrNullEntry =>
      LookupPlan("elementOrNull", LookupReplacement, Calls.OrNull, args)
    case ElementIfExistsEntry =>
      LookupPlan("elementIfExists", LookupReplacement, Calls.IfExists, args)
    case HasElementEntry =>
      LookupPlan("hasElement", HasElementReplacement, Exists, args)
    case WaitForElementEntry => WaitForElementPlan(args)
    case WaitForVisibleEntry => WaitForVisiblePlan(args)
    case ElementsByIdEntry => ElementsByIdPlan(args)
    case GetLocationInViewEntry => GetLocationInViewPlan(args)
    case SessionEntry(name, replacement) => SessionPlan(name, replacement, args)
    case EvalEntry(name) => EvalPlan(name, args)
    case NewWindowEntry => NewWindowPlan(args)
    case WindowNameEntry => WindowNamePlan(args)
  }

  /** What calling a behaviour with `args` does. A call issues at most one
      notice of its own (the method it forwards to may issue more); a shorthand issues none of its own, and a plain deprecation
      always issues one and forwards the arguments unchanged. */
  function PlanOf(b: Behavior, args: seq<Value>): (p: Plan)
    decreases b
    ensures |p.notices| <= 1
    ensures b.Shorthand? ==> p.notices == []
    ensures b.Deprecate? ==> |p.notices| == 1 && p.action == Invoke(Context, b.to, args)
    ensures b.ElementSig? && IsElement(Arg(args, 0)) ==>
              |p.notices| == 1 && p.action.Invoke? && p.action.target == ElementMethodOnChain(args[0])
    ensures b.ElementSig? && !IsElement(Arg(args, 0)) && b.fn.None? ==>
              p.notices == [] && p.action.Invoke? && p.action.target == Prototype
  {
    match b
    case Deprecate(from, to) => DeprecatePlan(from, to, args)
    case ElementSig(from, to, fn) =>
      var fallback := if fn.Some? then Some(PlanOf(fn.value, args)) else None;
      ElementSigPlan(from, to, fallback, args)
    case Custom(c) => CustomPlan(c, args)
    case Shorthand(kind, using) => ShorthandPlan(kind, using, args)
  }

  /** The state after one legacy call: the warned set, the events published
      by the call and the work it hands on. */
  datatype Step = Step(warned: set<string>, events: seq<Notice>, action: Action)

  /** One call of a legacy behaviour against the warned set `warned`. */
  function Run(warned: set<string>, b: Behavior, args: seq<Value>): (s: Step)
    ensures s.action == PlanOf(b, args).action
    ensures s.warned == warned + NamesOf(PlanOf(b, args).notices)
    ensures DistinctNames(s.events)
    ensures forall e :: e in s.events ==> e.name !in warned && e in PlanOf(b, args).notices
    ensures NamesOf(s.events) == NamesOf(PlanOf(b, args).notices) - warned
  {
    var p := PlanOf(b, args);
    var n := WarnAll(warned, p.notices);
    Step(n.warned, n.events, p.action)
  }

  /** Invoking a legacy method twice the same way does the same work twice but
      publishes its deprecation events only the first time: the first call
      publishes every notice name not yet warned, the second none. */
  lemma SecondCallPublishesNothing(warned: set<string>, b: Behavior, args: seq<Value>)
    ensures var first := Run(warned, b, args);
            var second := Run(first.warned, b, args);
            && NamesOf(first.events) == NamesOf(PlanOf(b, args).notices) - warned
            && second.events == [] && second.action == first.action && second.warned == first.warned
  {
    ReplayIsSilent(warned, PlanOf(b, args).notices);
  }

  /** "At most one notice" is per method: a plain deprecation forwards to
      `this[to]`, which may itself be a compat method with a notice of its own.
      `windowSize(w, h, handle)` with a numeric width forwards to the compat
      `setWindowSize`, which sees the legacy order and notifies a second time. */
  lemma ForwardedCallCanNotifyAgain(args: seq<Value>)
    requires IsLegacyOrder(args)
    ensures var outer := Run({}, Deprecate("windowSize", "setWindowSize"), args);
            var inner := Run(outer.warned, Custom(SetWindowSizeEntry), outer.action.args);
            && outer.action == Invoke(Context, "setWindowSize", args)
            && |outer.events| == 1 && outer.events[0].name == Cmd("windowSize")
            && |inner.events| == 1 && inner.events[0].name == Cmd("setWindowSize(width, height, handle)")
  {
    var outer := Run({}, Deprecate("windowSize", "setWindowSize"), args);
    RunSingleNotice({}, Deprecate("windowSize", "setWindowSize"), args);
    assert outer.warned == {Cmd("windowSize")};
    var p := PlanOf(Custom(SetWindowSizeEntry), args);
    assert p.notices[0].name == Cmd("setWindowSize(width, height, handle)");
    assert Cmd("windowSize") != Cmd("setWindowSize(width, height, handle)") by {
      assert |Cmd("windowSize")| != |Cmd("setWindowSize(width, height, handle)")|;
    }
    RunSingleNotice(outer.warned, Custom(SetWindowSizeEntry), args);
  }

  /** A call whose plan has one notice, not yet warned, publishes exactly that notice. */
  lemma RunSingleNotice(warned: set<string>, b: Behavior, args: seq<Value>)
    requires |PlanOf(b, args).notices| == 1 && PlanOf(b, args).notices[0].name !in warned
    ensures Run(warned, b, args).events == PlanOf(b, args).notices
  {
    var ns := PlanOf(b, args).notices;
    var first := Warn(warned, ns[0]);
    assert ns[1..] == [];
    assert WarnAll(first.warned, ns[1..]).events == [];
  }

  /** `deprecateElementAndStandardSig(from, to)` called with a non-element
      first argument behaves exactly like `deprecate(from, to)`. */
  lemma StandardSigBehavesAsDeprecate(warned: set<string>, from: string, to: string, args: seq<Value>)
    requires !IsElement(Arg(args, 0))
    ensures Run(warned, ElementAndStandardSig(from, to), args) == Run(warned, Deprecate(from, to), args)
  {
  }

  /** A generated shorthand, followed through the generic compat method it
      calls, performs the generic lookup or wait with its own strategy. */
  lemma ShorthandReachesGeneric(kind: ShorthandKind, using: string, args: seq<Value>)
    ensures var forwarded := PlanOf(Shorthand(kind, using), args).action;
            var generic := PlanOf(Custom(ShorthandTarget(kind)), forwarded.args).action;
            && forwarded.member == EntryName(ShorthandTarget(kind))
            && (var notices := PlanOf(Custom(ShorthandTarget(kind)), forwarded.args).notices;
                |notices| == 1 && notices[0].name == Cmd(EntryName(ShorthandTarget(kind))))
            && match kind
               case OrNull => generic == Lookup(Calls.OrNull, Str(using), Arg(args, 0))
               case IfExists => generic == Lookup(Calls.IfExists, Str(using), Arg(args, 0))
               case Has => generic == Lookup(Exists, Str(using), Arg(args, 0))
               case WaitElement => generic == WaitForElement(Str(using), Arg(args, 0), Arg(args, 1))
               case WaitVisible => generic == WaitForVisible(Str(using), Arg(args, 0), Arg(args, 1))
  {
    var forwarded := ShorthandPlan(kind, using, args).action.args;
    TargetPlan(kind, forwarded);
    assert Arg(forwarded, 0) == Str(using) && Arg(forwarded, 1) == Arg(args, 0);
    if kind.WaitElement? || kind.WaitVisible? {
      assert Arg(forwarded, 2) == Arg(args, 1);
    }
  }

  /** The plan of the generic method a shorthand calls, in terms of the
      arguments it is handed. */
  lemma TargetPlan(kind: ShorthandKind, forwarded: seq<Value>)
    ensures var p := PlanOf(Custom(ShorthandTarget(kind)), forwarded);
            && |p.notices| == 1 && p.notices[0].name == Cmd(EntryName(ShorthandTarget(kind)))
            && match kind
               case OrNull => p.action == Lookup(Calls.OrNull, Arg(forwarded, 0), Arg(forwarded, 1))
               case IfExists => p.action == Lookup(Calls.IfExists, Arg(forwarded, 0), Arg(forwarded, 1))
               case Has => p.action == Lookup(Exists, Arg(forwarded, 0), Arg(forwarded, 1))
               case WaitElement => p.action == WaitForElement(Arg(forwarded, 0), Arg(forwarded, 1), Arg(forwarded, 2))
               case WaitVisible => p.action == WaitForVisible(Arg(forwarded, 0), Arg(forwarded, 1), Arg(forwarded, 2))
  {
  }

  /** A shorthand call publishes nothing itself; the generic method it calls
      publishes that method's notice, once per warned set. */
  lemma ShorthandWarnsAsGeneric(warned: set<string>, kind: ShorthandKind, using: string, args: seq<Value>)
    ensures var outer := Run(warned, Shorthand(kind, using), args);
            var inner := Run(outer.warned, Custom(ShorthandTarget(kind)), outer.action.args);
            var name := Cmd(EntryName(ShorthandTarget(kind)));
            && outer.events == [] && outer.warned == warned
            && NamesOf(inner.events) == {name} - warned
            && name in inner.warned
  {
    var outer := Run(warned, Shorthand(kind, using), args);
    var p := PlanOf(Custom(ShorthandTarget(kind)), outer.action.args);
    ShorthandReachesGeneric(kind, using, args);
    assert NamesOf(p.notices) == {p.notices[0].name} by {
      assert p.notices == [p.notices[0]];
    }
  }

  /** Looked up in the table, `name` is a method that issues one notice
      under its own name and returns the chain itself. */
  predicate ReturnsThis(name: string, args: seq<Value>) {
    && name in Methods()
    && Methods()[name].Method?
    && var p := PlanOf(Methods()[name].behavior, args);
       p.action == ReturnThis && |p.notices| == 1 && p.notices[0].name == Cmd(name)
  }

  /** The five no-op entries of the table notify and return the chain itself,
      whatever the arguments. */
  lemma NoOpEntriesReturnThis(args: seq<Value>)
    ensures ReturnsThis("init", args)
    ensures ReturnsThis("setHTTPInactivityTimeout", args)
    ensures ReturnsThis("uploadFile", args)
    ensures ReturnsThis("sauceJobUpdate", args)
    ensures ReturnsThis("sauceJobStatus", args)
  {
    NoOpKeysInTable();
  }

  /** Where the no-op keys sit in the table. */
  lemma NoOpKeysInTable()
    ensures "init" in Methods() && Methods()["init"] == Method(Custom(NoOpEntry("init")))
    ensures "setHTTPInactivityTimeout" in Methods() && Methods()["setHTTPInactivityTimeout"] == Method(Custom(NoOpEntry("setHTTPInactivityTimeout")))
    ensures "uploadFile" in Methods() && Methods()["uploadFile"] == Method(Custom(NoOpEntry("uploadFile")))
    ensures "sauceJobUpdate" in Methods() && Methods()["sauceJobUpdate"] == Method(Custom(NoOpEntry("sauceJobUpdate")))
    ensures "sauceJobStatus" in Methods() && Methods()["sauceJobStatus"] == Method(Custom(NoOpEntry("sauceJobStatus")))
  {
    LastPartNoOps();
    TimeoutAndUploadNotInFirstPart();
    SauceNotInFirstPart();
  }

  lemma LastPartNoOps()
    ensures var last := InputAndWaitEntries();
            && "setHTTPInactivityTimeout" in last && last["setHTTPInactivityTimeout"] == Method(Custom(NoOpEntry("setHTTPInactivityTimeout")))
            && "uploadFile" in last && last["uploadFile"] == Method(Custom(NoOpEntry("uploadFile")))
            && "sauceJobUpdate" in last && last["sauceJobUpdate"] == Method(Custom(NoOpEntry("sauceJobUpdate")))
            && "sauceJobStatus" in last && last["sauceJobStatus"] == Method(Custom(NoOpEntry("sauceJobStatus")))
  {
  }

  lemma TimeoutAndUploadNotInFirstPart()
    ensures "setHTTPInactivityTimeout" !in SessionAndWindowEntries() && "uploadFile" !in SessionAndWindowEntries()
  {
  }

  lemma SauceNotInFirstPart()
    ensures "sauceJobUpdate" !in SessionAndWindowEntries() && "sauceJobStatus" !in SessionAndWindowEntries()
  {
  }

  /** Looked up in the table, `name` notifies under its own name with
      `replacement`, then reads session or server state. */
  predicate ReadsSession(name: string, replacement: Value, args: seq<Value>) {
    && name in Methods()
    && PlanOf(Methods()[name].behavior, args) == Plan([Notice(Cmd(name), replacement, Undefined)], Opaque(name, args))
  }

  /** The seven session and server keys of the table, with the replacement
      each one's notice names; `sessionID` alone is an accessor. */
  lemma SessionEntriesReadSession(args: seq<Value>)
    ensures ReadsSession("sessionID", SessionIdProperty, args) && Methods()["sessionID"].Getter?
    ensures ReadsSession("status", Undefined, args) && Methods()["status"].Method?
    ensures ReadsSession("sessions", Undefined, args) && Methods()["sessions"].Method?
    ensures ReadsSession("sessionCapabilities", CapabilitiesProperty, args) && Methods()["sessionCapabilities"].Method?
    ensures ReadsSession("altSessionCapabilities", CapabilitiesProperty, args) && Methods()["altSessionCapabilities"].Method?
    ensures ReadsSession("getSessionId", SessionIdProperty, args) && Methods()["getSessionId"].Method?
    ensures ReadsSession("getSessionID", SessionIdProperty, args) && Methods()["getSessionID"].Method?
  {
    SessionIdKeysInTable();
    CapabilityKeysInTable();
    ServerKeysInTable();
    SessionEntryPlan("sessionID", SessionIdProperty, args);
    SessionEntryPlan("status", Undefined, args);
    SessionEntryPlan("sessions", Undefined, args);
    SessionEntryPlan("sessionCapabilities", CapabilitiesProperty, args);
    SessionEntryPlan("altSessionCapabilities", CapabilitiesProperty, args);
    SessionEntryPlan("getSessionId", SessionIdProperty, args);
    SessionEntryPlan("getSessionID", SessionIdProperty, args);
  }

  lemma SessionEntryPlan(name: string, replacement: Value, args: seq<Value>)
    ensures PlanOf(Custom(SessionEntry(name, replacement)), args) == Plan([Notice(Cmd(name), replacement, Undefined)], Opaque(name, args))
  {
  }

  lemma SessionIdKeysInFirstPart()
    ensures "sessionID" in SessionAndWindowEntries() && SessionAndWindowEntries()["sessionID"] == Getter(Custom(SessionEntry("sessionID", SessionIdProperty)))
    ensures "getSessionId" in SessionAndWindowEntries() && SessionAndWindowEntries()["getSessionId"] == Method(Custom(SessionEntry("getSessionId", SessionIdProperty)))
    ensures "getSessionID" in SessionAndWindowEntries() && SessionAndWindowEntries()["getSessionID"] == Method(Custom(SessionEntry("getSessionID", SessionIdProperty)))
  {
  }

  lemma SessionIdKeysInTable()
    ensures "sessionID" in Methods() && Methods()["sessionID"] == Getter(Custom(SessionEntry("sessionID", SessionIdProperty)))
    ensures "getSessionId" in Methods() && Methods()["getSessionId"] == Method(Custom(SessionEntry("getSessionId", SessionIdProperty)))
    ensures "getSessionID" in Methods() && Methods()["getSessionID"] == Method(Custom(SessionEntry("getSessionID", SessionIdProperty)))
  {
    SessionIdKeysInFirstPart();
  }

  lemma CapabilityKeysInFirstPart()
    ensures "sessionCapabilities" in SessionAndWindowEntries() && SessionAndWindowEntries()["sessionCapabilities"] == Method(Custom(SessionEntry("sessionCapabilities", CapabilitiesProperty)))
    ensures "altSessionCapabilities" in SessionAndWindowEntries() && SessionAndWindowEntries()["altSessionCapabilities"] == Method(Custom(SessionEntry("altSessionCapabilities", CapabilitiesProperty)))
  {
  }

  lemma CapabilityKeysInTable()
    ensures "sessionCapabilities" in Methods()
            && Methods()["sessionCapabilities"] == Method(Custom(SessionEntry("sessionCapabilities", CapabilitiesProperty)))
    ensures "altSessionCapabilities" in Methods()
            && Methods()["altSessionCapabilities"] == Method(Custom(SessionEntry("altSessionCapabilities", CapabilitiesProperty)))
  {
    CapabilityKeysInFirstPart();
  }

  lemma ServerKeysInFirstPart()
    ensures "status" in SessionAndWindowEntries() && SessionAndWindowEntries()["status"] == Method(Custom(SessionEntry("status", Undefined)))
    ensures "sessions" in SessionAndWindowEntries() && SessionAndWindowEntries()["sessions"] == Method(Custom(SessionEntry("sessions", Undefined)))
  {
  }

  lemma ServerKeysInTable()
    ensures "status" in Methods() && Methods()["status"] == Method(Custom(SessionEntry("status", Undefined)))
    ensures "sessions" in Methods() && Methods()["sessions"] == Method(Custom(SessionEntry("sessions", Undefined)))
  {
    ServerKeysInFirstPart();
  }


  const SessionIdProperty := Str("the Command#session.sessionId property")
  const CapabilitiesProperty := Str("the Command#session.capabilities property")

  /** The assembled table before strategy expansion: the four parts below,
      each in source order. The source object repeats no key, so the parts
      share none and the order of the union does not change the table; the
      first part is joined last so that its entries are read off directly. */
  function Methods(): (m: map<string, Descriptor>)
    ensures "sessionID" in m && m["sessionID"] == Getter(Custom(SessionEntry("sessionID", SessionIdProperty)))
    ensures "init" in m && m["init"] == Method(Custom(NoOpEntry("init")))
  {
    FirstPartHoldsSessionIdAndInit();
    FinderEntries() + ElementEntries() + InputAndWaitEntries() + SessionAndWindowEntries()
  }

  lemma FirstPartHoldsSessionIdAndInit()
    ensures "sessionID" in SessionAndWindowEntries() && "init" in SessionAndWindowEntries()
    ensures SessionAndWindowEntries()["sessionID"] == Getter(Custom(SessionEntry("sessionID", SessionIdProperty)))
    ensures SessionAndWindowEntries()["init"] == Method(Custom(NoOpEntry("init")))
  {
  }

  /** Session members, timeouts, navigation, scripts and window sizing (`sessionID` to `setWindowPosition`). */
  function SessionAndWindowEntries(): map<string, Descriptor> {
    map[
      "sessionID" := Getter(Custom(SessionEntry("sessionID", SessionIdProperty))),
      "status" := Method(Custom(SessionEntry("status", Undefined))),
      "init" := Method(Custom(NoOpEntry("init"))),
      "sessions" := Method(Custom(SessionEntry("sessions", Undefined))),
      "sessionCapabilities" := Method(Custom(SessionEntry("sessionCapabilities", CapabilitiesProperty))),
      "altSessionCapabilities" := Method(Custom(SessionEntry("altSessionCapabilities", CapabilitiesProperty))),
      "getSessionId" := Method(Custom(SessionEntry("getSessionId", SessionIdProperty))),
      "getSessionID" := Method(Custom(SessionEntry("getSessionID", SessionIdProperty))),
      "setAsyncScriptTimeout" := Method(Deprecate("setAsyncScriptTimeout", "setExecuteAsyncTimeout")),
      "setWaitTimeout" := Method(Deprecate("setWaitTimeout", "setFindTimeout")),
      "setImplicitWaitTimeout" := Method(Deprecate("setImplicitWaitTimeout", "setFindTimeout")),
      "windowHandle" := Method(Deprecate("windowHandle", "getCurrentWindowHandle")),
      "windowHandles" := Method(Deprecate("windowHandles", "getAllWindowHandles")),
      "url" := Method(Deprecate("url", "getCurrentUrl")),
      "forward" := Method(Deprecate("forward", "goForward")),
      "back" := Method(Deprecate("back", "goBack")),
      "safeExecute" := Method(Deprecate("safeExecute", "execute")),
      "eval" := Method(Custom(EvalEntry("eval"))),
      "safeEval" := Method(Custom(EvalEntry("safeEval"))),
      "safeExecuteAsync" := Method(Deprecate("safeExecuteAsync", "executeAsync")),
      "frame" := Method(Deprecate("frame", "switchToFrame")),
      "window" := Method(Deprecate("window", "switchToWindow")),
      "close" := Method(Deprecate("close", "closeCurrentWindow")),
      "windowSize" := Method(Deprecate("windowSize", "setWindowSize")),
      "setWindowSize" := Method(Custom(SetWindowSizeEntry)),
      "setWindowPosition" := Method(Custom(SetWindowPositionEntry))
    ]
  }

  /** Window, cookie and page reads, and the element finders (`maximize` to `elementOrNull`). */
  function FinderEntries(): map<string, Descriptor> {
    map[
      "maximize" := Method(Deprecate("maximize", "maximizeWindow")),
      "allCookies" := Method(Deprecate("allCookies", "getCookies")),
      "deleteAllCookies" := Method(Deprecate("deleteAllCookies", "clearCookies")),
      "source" := Method(Deprecate("source", "getPageSource")),
      "title" := Method(Deprecate("title", "getPageTitle")),
      "element" := Method(Deprecate("element", "find")),
      "elementByClassName" := Method(Deprecate("elementByClassName", "findByClassName")),
      "elementByCssSelector" := Method(Deprecate("elementByCssSelector", "findByCssSelector")),
      "elementById" := Method(Deprecate("elementById", "findById")),
      "elementByName" := Method(Deprecate("elementByName", "findByName")),
      "elementByLinkText" := Method(Deprecate("elementByLinkText", "findByLinkText")),
      "elementByPartialLinkText" := Method(Deprecate("elementByPartialLinkText", "findByPartialLinkText")),
      "elementByTagName" := Method(Deprecate("elementByTagName", "findByTagName")),
      "elementByXPath" := Method(Deprecate("elementByXPath", "findByXpath")),
      "elementByCss" := Method(Deprecate("elementByCss", "findByCssSelector")),
      "elements" := Method(Deprecate("elements", "findAll")),
      "elementsByClassName" := Method(Deprecate("elementsByClassName", "findAllByClassName")),
      "elementsByCssSelector" := Method(Deprecate("elementsByCssSelector", "findAllByCssSelector")),
      "elementsById" := Method(Custom(ElementsByIdEntry)),
      "elementsByName" := Method(Deprecate("elementsByName", "findAllByName")),
      "elementsByLinkText" := Method(Deprecate("elementsByLinkText", "findAllByLinkText")),
      "elementsByPartialLinkText" := Method(Deprecate("elementsByPartialLinkText", "findAllByPartialLinkText")),
      "elementsByTagName" := Method(Deprecate("elementsByTagName", "findAllByTagName")),
      "elementsByXPath" := Method(Deprecate("elementsByXPath", "findAllByXpath")),
      "elementsByCss" := Method(Deprecate("elementsByCss", "findAllByCssSelector")),
      "elementOrNull" := Method(Custom(ElementOrNullEntry))
    ]
  }

  /** Lookups with sentinels and the element members (`elementIfExists` to `alertKeys`). */
  function ElementEntries(): map<string, Descriptor> {
    map[
      "elementIfExists" := Method(Custom(ElementIfExistsEntry)),
      "hasElement" := Method(Custom(HasElementEntry)),
      "active" := Method(Deprecate("active", "getActiveElement")),
      "clickElement" := Method(ElementSig("clickElement", Some("click"), None)),
      "submit" := Method(ElementSig("submit", None, None)),
      "text" := Method(ElementAndStandardSig("text", "getVisibleText")),
      "textPresent" := Method(Custom(TextPresentEntry)),
      "type" := Method(ElementSig("type", Some("type"), None)),
      "keys" := Method(Deprecate("keys", "type")),
      "getTagName" := Method(ElementSig("getTagName", None, None)),
      "clear" := Method(ElementAndStandardSig("clear", "clearValue")),
      "isSelected" := Method(ElementSig("isSelected", None, None)),
      "isEnabled" := Method(ElementSig("isEnabled", None, None)),
      "enabled" := Method(ElementAndStandardSig("enabled", "isEnabled")),
      "getAttribute" := Method(ElementSig("getAttribute", None, None)),
      "getValue" := Method(Custom(GetValueEntry)),
      "equalsElement" := Method(Custom(EqualsElementEntry)),
      "isDisplayed" := Method(ElementSig("isDisplayed", None, None)),
      "displayed" := Method(ElementAndStandardSig("displayed", "isDisplayed")),
      "getLocation" := Method(ElementAndStandardSig("getLocation", "getPosition")),
      "getLocationInView" := Method(Custom(GetLocationInViewEntry)),
      "getSize" := Method(ElementSig("getSize", None, None)),
      "getComputedCss" := Method(ElementAndStandardSig("getComputedCss", "getComputedStyle")),
      "getComputedCSS" := Method(ElementAndStandardSig("getComputedCSS", "getComputedStyle")),
      "alertText" := Method(Deprecate("alertText", "getAlertText")),
      "alertKeys" := Method(Deprecate("alertKeys", "typeInPrompt"))
    ]
  }

  /** Mouse, storage, logs, scripts, no-ops and the waits (`moveTo` to `always`). */
  function InputAndWaitEntries(): map<string, Descriptor> {
    map[
      "moveTo" := Method(ElementAndStandardSig("moveTo", "moveMouseTo")),
      "click" := Method(ElementSig("click", None, None)),
      "buttonDown" := Method(Deprecate("buttonDown", "pressMouseButton")),
      "buttonUp" := Method(Deprecate("buttonUp", "releaseMouseButton")),
      "doubleclick" := Method(Deprecate("doubleclick", "doubleClick")),
      "tapElement" := Method(ElementSig("tapElement", Some("tap"), None)),
      "flick" := Method(Deprecate("flick", "flickFinger")),
      "setLocalStorageKey" := Method(Deprecate("setLocalStorageKey", "setLocalStorageItem")),
      "getLocalStorageKey" := Method(Deprecate("getLocalStorageKey", "getLocalStorageItem")),
      "removeLocalStorageKey" := Method(Deprecate("removeLocalStorageKey", "deleteLocalStorageItem")),
      "log" := Method(Deprecate("log", "getLogsFor")),
      "logTypes" := Method(Deprecate("logTypes", "getAvailableLogTypes")),
      "newWindow" := Method(Custom(NewWindowEntry)),
      "windowName" := Method(Custom(WindowNameEntry)),
      "setHTTPInactivityTimeout" := Method(Custom(NoOpEntry("setHTTPInactivityTimeout"))),
      "getPageIndex" := Method(Custom(GetPageIndexEntry)),
      "uploadFile" := Method(Custom(NoOpEntry("uploadFile"))),
      "waitForCondition" := Method(Custom(ConditionEntry("waitForCondition"))),
      "waitForConditionInBrowser" := Method(Custom(ConditionEntry("waitForConditionInBrowser"))),
      "sauceJobUpdate" := Method(Custom(NoOpEntry("sauceJobUpdate"))),
      "sauceJobStatus" := Method(Custom(NoOpEntry("sauceJobStatus"))),
      "waitForElement" := Method(Custom(WaitForElementEntry)),
      "waitForVisible" := Method(Custom(WaitForVisibleEntry)),
      "isVisible" := Method(Custom(IsVisibleEntry)),
      "otherwise" := Method(Deprecate("otherwise", "catch")),
      "always" := Method(Deprecate("always", "finally"))
    ]
  }
}

=== FILE: scoped_timeout.dfy ===
/** `waitForElement` and `waitForVisible`: a lookup run under a temporary find
    timeout, with the original timeout put back on every path before the
    outcome is delivered. The engine is reduced to its find timeout plus a log
    of the requests this layer sends it; what a lookup or a visibility poll
    answers is a parameter. */
module ScopedTimeout {
  import opened Outcomes
  import opened JsValues

  datatype EngineOp =
    | GetFindTimeout
    | SetFindTimeout(timeout: Value)
    | Find(using: Value, value: Value, underTimeout: Value)
    | PollVisible(element: Value)

  datatype Engine = Engine(findTimeout: Value, log: seq<EngineOp>)

  /** An engine state together with a delivered outcome. */
  datatype Settled = Settled(engine: Engine, outcome: Result<Value, Failure>)

  /** Read the find timeout, set `temporary`, run `op`, put the original back,
      then deliver what `op` produced. */
  function WithFindTimeout(e: Engine, temporary: Value, op: Engine -> Settled): (r: Settled)
    ensures r.engine.findTimeout == e.findTimeout
    ensures var during := Engine(temporary, e.log + [GetFindTimeout, SetFindTimeout(temporary)]);
            && r.outcome == op(during).outcome
            && r.engine.log == op(during).engine.log + [SetFindTimeout(e.findTimeout)]
  {
    var original := e.findTimeout;
    var during := Engine(temporary, e.log + [GetFindTimeout, SetFindTimeout(temporary)]);
    var ran := op(during);
    Settled(Engine(original, ran.engine.log + [SetFindTimeout(original)]), ran.outcome)
  }

  /** `find(using, value)` under whatever find timeout is in force; `find`
      gives the engine's answer for a given timeout. */
  function FindStep(e: Engine, using: Value, value: Value, find: Value -> Result<Value, EngineError>): Settled {
    var found := find(e.findTimeout);
    var logged := e.(log := e.log + [Find(using, value, e.findTimeout)]);
    match found
    case Ok(element) => Settled(logged, Ok(element))
    case Err(x) => Settled(logged, Err(FromEngine(x)))
  }

  /** `waitForElement(using, value, timeout)`. */
  function WaitForElement(e: Engine, using: Value, value: Value, timeout: Value,
                          find: Value -> Result<Value, EngineError>): (r: Settled)
    ensures r.engine.findTimeout == e.findTimeout
    ensures find(timeout).Ok? ==> r.outcome == Ok(find(timeout).value)
    ensures find(timeout).Err? ==> r.outcome == Err(FromEngine(find(timeout).error))
    ensures r.engine.log == e.log + [GetFindTimeout, SetFindTimeout(timeout), Find(using, value, timeout),
                                     SetFindTimeout(e.findTimeout)]
  {
    WithFindTimeout(e, timeout, (during: Engine) => FindStep(during, using, value, find))
  }

  /** The lookup followed, when it succeeds, by the visibility poll; `poll`
      gives `pollUntil`'s answer for the element found. */
  function FindThenPoll(e: Engine, using: Value, value: Value, find: Value -> Result<Value, EngineError>,
                        poll: Value -> Result<Value, EngineError>): Settled {
    var looked := FindStep(e, using, value, find);
    match looked.outcome
    case Err(x) => looked
    case Ok(element) =>
      var polled := looked.engine.(log := looked.engine.log + [PollVisible(element)]);
      match poll(element)
      case Ok(isVisible) => Settled(polled, Ok(isVisible))
      case Err(x) => Settled(polled, Err(FromEngine(x)))
  }

  /** `waitForVisible(using, value, timeout)`: a falsy poll answer turns into
      the layer's own failure after the timeout is restored; a visible element
      resolves to `undefined`, not to the element. */
  function WaitForVisible(e: Engine, using: Value, value: Value, timeout: Value,
                          find: Value -> Result<Value, EngineError>,
                          poll: Value -> Result<Value, EngineError>): (r: Settled)
    ensures r.engine.findTimeout == e.findTimeout
    ensures |r.engine.log| > 0 && r.engine.log[|r.engine.log| - 1] == SetFindTimeout(e.findTimeout)
    ensures find(timeout).Err? ==> r.outcome == Err(FromEngine(find(timeout).error))
    ensures find(timeout).Ok? && poll(find(timeout).value).Err? ==>
      r.outcome == Err(FromEngine(poll(find(timeout).value).error))
    ensures find(timeout).Ok? && poll(find(timeout).value).Ok? ==>
      r.outcome == (if Truthy(poll(find(timeout).value).value) then Ok(Undefined) else Err(NotVisible))
  {
    var settled := WithFindTimeout(e, timeout, (during: Engine) => FindThenPoll(during, using, value, find, poll));
    match settled.outcome
    case Err(x) => settled
    case Ok(isVisible) => settled.(outcome := if Truthy(isVisible) then Ok(Undefined) else Err(NotVisible))
  }

  /** "Element didn't become visible" is reported exactly when the lookup
      succeeded and the poll settled on a falsy answer; it is never confused
      with a failure of the lookup or of the poll. */
  lemma NotVisibleOnlyFromPoll(e: Engine, using: Value, value: Value, timeout: Value,
                               find: Value -> Result<Value, EngineError>,
                               poll: Value -> Result<Value, EngineError>)
    ensures WaitForVisible(e, using, value, timeout, find, poll).outcome == Err(NotVisible) <==>
      find(timeout).Ok? && poll(find(timeout).value).Ok? && !Truthy(poll(find(timeout).value).value)
  {
  }
}

=== FILE: sentinels.dfy ===
/** The recoverable lookups: `elementOrNull`, `elementIfExists`, `hasElement`
    and the `(using, value)` form of `isVisible` absorb a failed lookup into a
    success value instead of passing the rejection on. */
module Sentinels {
  import opened Outcomes
  import opened JsValues
  import opened Calls

  /** `find(using, value).catch(() => null)`. */
  function ElementOrNull(lookup: Result<Value, EngineError>): (v: Value)
    ensures lookup.Ok? ==> v == lookup.value
    ensures lookup.Err? ==> v == Null
  {
    match lookup
    case Ok(element) => element
    case Err(_) => Null
  }

  /** `find(using, value).catch(() => {})`. */
  function ElementIfExists(lookup: Result<Value, EngineError>): (v: Value)
    ensures lookup.Ok? ==> v == lookup.value
    ensures lookup.Err? ==> v == Undefined
  {
    match lookup
    case Ok(element) => element
    case Err(_) => Undefined
  }

  /** `find(using, value).then(() => true, () => false)`. */
  function HasElement(lookup: Result<Value, EngineError>): (b: bool)
    ensures b <==> lookup.Ok?
  {
    match lookup
    case Ok(_) => true
    case Err(_) => false
  }

  /** The settled outcome of a `Lookup` action: always a success. */
  function SettleLookup(sentinel: Sentinel, lookup: Result<Value, EngineError>): (r: Result<Value, Failure>)
    ensures r.Ok?
    ensures sentinel == OrNull ==> r.value == ElementOrNull(lookup)
    ensures sentinel == IfExists ==> r.value == ElementIfExists(lookup)
    ensures sentinel == Exists ==> r.value == Bool(lookup.Ok?)
  {
    match sentinel
    case OrNull => Ok(ElementOrNull(lookup))
    case IfExists => Ok(ElementIfExists(lookup))
    case Exists => Ok(Bool(HasElement(lookup)))
  }

  /** When the engine only ever finds element handles, each sentinel tells a
      failed lookup apart from a successful one, and `null` and `undefined`
      are two different answers to the same failure. */
  lemma SentinelsRevealFailure(lookup: Result<Value, EngineError>)
    requires lookup.Ok? ==> IsElement(lookup.value)
    ensures IsElement(ElementOrNull(lookup)) <==> lookup.Ok?
    ensures ElementOrNull(lookup) == Null <==> lookup.Err?
    ensures ElementIfExists(lookup) == Undefined <==> lookup.Err?
    ensures ElementOrNull(lookup) == ElementIfExists(lookup) <==> lookup.Ok?
  {
  }

  /** `find(using, value).isDisplayed().catch(() => false)`: `displayed` is the
      engine's answer for the element found. Either failure becomes `false`. */
  function SettleLookupDisplayed(lookup: Result<Value, EngineError>, displayed: Value -> Result<Value, EngineError>)
    : (r: Result<Value, Failure>)
    ensures r.Ok?
    ensures lookup.Err? ==> r.value == Bool(false)
    ensures lookup.Ok? && displayed(lookup.value).Err? ==> r.value == Bool(false)
    ensures lookup.Ok? && displayed(lookup.value).Ok? ==> r.value == displayed(lookup.value).value
  {
    match lookup
    case Err(_) => Ok(Bool(false))
    case Ok(element) =>
      match displayed(element)
      case Err(_) => Ok(Bool(false))
      case Ok(v) => Ok(v)
  }
}

=== FILE: settlement.dfy ===
/** What a planned action settles to. The automation engine and the command
    chain are reduced to a World: the context, the find timeout and the
    answers the engine gives. Each kind of action is settled by the module
    that defines its rule. */
module Settlement {
  import opened Outcomes
  import opened JsValues
  import opened Calls
  import opened Sentinels
  import opened FanOut
  import opened TextSearch
  import opened ScopedTimeout
  import opened Registry
  import Legacy

  /** The engine's answers, as functions of the request made. `displayed`
      (after a lookup), `call` (a handle's own `isDisplayed`) and `perElement`
      (each context element) are separate requests made at different times,
      and an element's display state may change between them, so the model
      does not tie their answers together. */
  datatype World = World(
    engine: Engine,                                                   // find timeout and request log
    context: CommandContext,                                          // the chain's current context
    chain: Value,                                                     // the chain itself
    call: (Target, string, seq<Value>) -> Result<Value, EngineError>,  // a forwarded call
    find: (Value, Value, Value) -> Result<Value, EngineError>,         // find(using, value) under a timeout
    displayed: Value -> Result<Value, EngineError>,                   // `isDisplayed()` of an element
    perElement: (Value, string, seq<Value>) -> Result<Value, EngineError>, // one context element's call
    visibleText: Target -> Result<string, EngineError>,               // `getVisibleText()`
    condition: (Value, Value, Value) -> Result<Value, EngineError>,   // the condition poll
    pollVisible: Value -> Result<Value, EngineError>,                 // the visibility poll of an element
    sessionRead: (string, seq<Value>) -> Result<Value, EngineError>)  // session and server reads

  /** An engine rejection handed on unchanged. */
  function Lift(answer: Result<Value, EngineError>): (r: Result<Value, Failure>)
    ensures answer.Ok? <==> r.Ok?
    ensures answer.Ok? ==> r.value == answer.value
    ensures answer.Err? ==> r.error == FromEngine(answer.error)
  {
    match answer
    case Ok(v) => Ok(v)
    case Err(e) => Err(FromEngine(e))
  }

  /** A handle method called on a value that is not an object: the source
      calls `element.getVisibleText()` on any truthy `element` (compat.js:297-299)
      and `element.equals(other)` on any `element` (compat.js:333-336), so a
      string, number, boolean, array, `null` or `undefined` there throws a
      `TypeError` inside the new command. What an object answers is the engine's. */
  predicate CallsNonObject(a: Action) {
    || (a.Invoke? && a.target.Handle? && !a.target.element.Obj?)
    || (a.TextTest? && a.source.Handle? && !a.source.element.Obj?)
  }

  /** The outcome of one action. Only the two waits talk to the find timeout,
      and they put it back; the sentinel lookups never reject; the layer's own
      failures come only from `waitForVisible`, from an empty single context
      and from a method called on a value that is not an object. */
  function Settle(a: Action, w: World): (r: Settled)
    ensures r.engine.findTimeout == w.engine.findTimeout
    ensures !a.WaitForElement? && !a.WaitForVisible? ==> r.engine == w.engine
    ensures a.Lookup? || a.LookupDisplayed? ==> r.outcome.Ok?
    ensures r.outcome == Err(NotVisible) ==> a.WaitForVisible?
    ensures r.outcome == Err(TypeError) <==>
              CallsNonObject(a) || (a.EachContextElement? && w.context.isSingle && |w.context.elements| == 0)
    ensures a.Invoke? || a.PollCondition? || a.Opaque? ==> r.outcome.Err? && !CallsNonObject(a) ==> r.outcome.error.FromEngine?
    ensures a.TextTest? && !CallsNonObject(a) ==> r.outcome == SettleTextTest(a.search, w.visibleText(a.source))
    ensures a.ReturnThis? ==> r.outcome == Ok(w.chain)
  {
    if CallsNonObject(a) then Settled(w.engine, Err(TypeError))
    else
    match a
    case Invoke(target, member, args) => Settled(w.engine, Lift(w.call(target, member, args)))
    case ReturnThis => Settled(w.engine, Ok(w.chain))
    case Lookup(sentinel, using, value) =>
      Settled(w.engine, SettleLookup(sentinel, w.find(using, value, w.engine.findTimeout)))
    case LookupDisplayed(using, value) =>
      Settled(w.engine, SettleLookupDisplayed(w.find(using, value, w.engine.findTimeout), w.displayed))
    case EachContextElement(member, args) =>
      Settled(w.engine, SettleEach(w.context, (element: Value) => w.perElement(element, member, args)))
    case TextTest(source, search) => Settled(w.engine, SettleTextTest(search, w.visibleText(source)))
    case PollCondition(expression, timeout, pollInterval) =>
      Settled(w.engine, Lift(w.condition(expression, timeout, pollInterval)))
    case WaitForElement(using, value, timeout) =>
      ScopedTimeout.WaitForElement(w.engine, using, value, timeout, (t: Value) => w.find(using, value, t))
    case WaitForVisible(using, value, timeout) =>
      ScopedTimeout.WaitForVisible(w.engine, using, value, timeout, (t: Value) => w.find(using, value, t), w.pollVisible)
    case Opaque(name, args) => Settled(w.engine, Lift(w.sessionRead(name, args)))
  }

  /** `textPresent(search, element)` with a truthy `element` that is not an
      object rejects with a `TypeError`, whatever the engine would answer. */
  lemma TextPresentOnNonObjectRejects(search: Value, element: Value, w: World)
    requires Truthy(element) && !element.Obj?
    ensures Settle(Legacy.TextPresentPlan([search, element]).action, w).outcome == Err(TypeError)
  {
    assert Arg([search, element], 1) == element;
  }

  /** `equalsElement(element, other)` with an element `other` and an `element`
      that is not an object rejects with a `TypeError`; with an object
      `element` it is the engine's `equals` answer. */
  lemma EqualsElementOnNonObjectRejects(element: Value, other: Value, w: World)
    requires IsElement(other)
    ensures !element.Obj? ==> Settle(Legacy.EqualsElementPlan([element, other]).action, w).outcome == Err(TypeError)
    ensures element.Obj? ==>
      Settle(Legacy.EqualsElementPlan([element, other]).action, w).outcome == Lift(w.call(Handle(element), "equals", [other]))
  {
    assert Arg([element, other], 1) == other;
  }

  /** Whatever legacy method is called, the find timeout in force afterwards
      is the one in force before. */
  lemma EveryCallKeepsFindTimeout(b: Behavior, args: seq<Value>, w: World)
    ensures Settle(PlanOf(b, args).action, w).engine.findTimeout == w.engine.findTimeout
  {
  }

  /** `hasElement(using, value)` always resolves, to whether the lookup under
      the current find timeout succeeded. */
  lemma HasElementAnswersLookup(args: seq<Value>, w: World)
    ensures var r := Settle(PlanOf(Custom(HasElementEntry), args).action, w).outcome;
            r == Ok(Bool(w.find(Arg(args, 0), Arg(args, 1), w.engine.findTimeout).Ok?))
  {
  }

  /** `waitForElement(using, value, timeout)` settles to the lookup made under
      the caller's timeout, and the engine's timeout is put back. */
  lemma WaitForElementSettlesUnderCallerTimeout(args: seq<Value>, w: World)
    ensures var s := Settle(PlanOf(Custom(WaitForElementEntry), args).action, w);
            && s.outcome == Lift(w.find(Arg(args, 0), Arg(args, 1), Arg(args, 2)))
            && s.engine.findTimeout == w.engine.findTimeout
  {
    var a := PlanOf(Custom(WaitForElementEntry), args).action;
    assert a == Calls.WaitForElement(Arg(args, 0), Arg(args, 1), Arg(args, 2));
    var find := (t: Value) => w.find(Arg(args, 0), Arg(args, 1), t);
    assert Settle(a, w) == ScopedTimeout.WaitForElement(w.engine, Arg(args, 0), Arg(args, 1), Arg(args, 2), find);
  }
}

=== FILE: strategies.dfy ===
/** The strategy expansion loop: for every locator strategy suffix, five
    shorthand methods bound to that strategy, plus a second family under
    `Css` for `CssSelector`. The suffix list and the strategy names come
    from the strategies module, so they are a parameter here. */
module Strategies {
  import opened Registry

  /** `strategies.suffixes[index]` together with `strategies[index]`. */
  datatype StrategyEntry = StrategyEntry(suffix: string, using: string)

  /** The suffix used in every generated name: `Xpath` is spelled `XPath`. */
  function WdSuffix(suffix: string): (w: string)
    ensures suffix == "Xpath" ==> w == "XPath"
    ensures suffix != "Xpath" ==> w == suffix
  {
    if suffix == "Xpath" then "XPath" else suffix
  }

  /** The name of one shorthand for the name suffix `w`. */
  function FamilyName(kind: ShorthandKind, w: string): string {
    match kind
    case OrNull => "elementBy" + w + "OrNull"
    case IfExists => "elementBy" + w + "IfExists"
    case Has => "hasElementBy" + w
    case WaitElement => "waitForElementBy" + w
    case WaitVisible => "waitForVisibleBy" + w
  }

  /** The five names of one family are pairwise different. */
  lemma FamilyNamesDistinct(w: string)
    ensures forall k1: ShorthandKind, k2: ShorthandKind :: k1 != k2 ==> FamilyName(k1, w) != FamilyName(k2, w)
  {
    assert FamilyName(WaitElement, w)[7] == 'E';
    assert FamilyName(WaitVisible, w)[7] == 'V';
  }

  function FamilyKeys(w: string): set<string> {
    {FamilyName(OrNull, w), FamilyName(IfExists, w), FamilyName(Has, w),
     FamilyName(WaitElement, w), FamilyName(WaitVisible, w)}
  }

  /** `addStrategy(...)`: the five shorthands for `w`, all bound to `using`. */
  function AddFamily(m: map<string, Descriptor>, w: string, using: string): (r: map<string, Descriptor>)
    ensures r.Keys == m.Keys + FamilyKeys(w)
    ensures forall kind: ShorthandKind :: r[FamilyName(kind, w)] == Method(Shorthand(kind, using))
    ensures forall k :: k in m && k !in FamilyKeys(w) ==> r[k] == m[k]
  {
    FamilyNamesDistinct(w);
    m[FamilyName(OrNull, w) := Method(Shorthand(OrNull, using))]
     [FamilyName(IfExists, w) := Method(Shorthand(IfExists, using))]
     [FamilyName(Has, w) := Method(Shorthand(Has, using))]
     [FamilyName(WaitElement, w) := Method(Shorthand(WaitElement, using))]
     [FamilyName(WaitVisible, w) := Method(Shorthand(WaitVisible, using))]
  }

  /** The names one strategy entry defines. */
  function EntryKeys(e: StrategyEntry): set<string> {
    FamilyKeys(WdSuffix(e.suffix)) + (if e.suffix == "CssSelector" then FamilyKeys("Css") else {})
  }

  /** One iteration of the `forEach`. */
  function AddStrategy(m: map<string, Descriptor>, e: StrategyEntry): (r: map<string, Descriptor>)
    ensures r.Keys == m.Keys + EntryKeys(e)
    ensures forall k :: k in m && k !in EntryKeys(e) ==> r[k] == m[k]
  {
    var withMain := AddFamily(m, WdSuffix(e.suffix), e.using);
    if e.suffix == "CssSelector" then AddFamily(withMain, "Css", e.using) else withMain
  }

  /** The names a whole strategy list defines. */
  function GeneratedKeys(entries: seq<StrategyEntry>): set<string>
    decreases |entries|
  {
    if |entries| == 0 then {} else GeneratedKeys(entries[..|entries| - 1]) + EntryKeys(entries[|entries| - 1])
  }

  /** The whole `forEach`, in list order: a later entry overwrites an earlier
      one's name if they collide. */
  function Expand(m: map<string, Descriptor>, entries: seq<StrategyEntry>): (r: map<string, Descriptor>)
    decreases |entries|
    ensures r.Keys == m.Keys + GeneratedKeys(entries)
    ensures forall k :: k in m && k !in GeneratedKeys(entries) ==> r[k] == m[k]
  {
    if |entries| == 0 then m else AddStrategy(Expand(m, entries[..|entries| - 1]), entries[|entries| - 1])
  }

  /** The ten names defined for `CssSelector` never collide with each other. */
  lemma CssFamiliesDisjoint()
    ensures FamilyKeys("CssSelector") !! FamilyKeys("Css")
  {
  }

  /** The value one strategy entry gives a name of its own families. */
  lemma AddStrategyBinds(m: map<string, Descriptor>, e: StrategyEntry, kind: ShorthandKind, w: string)
    requires w == WdSuffix(e.suffix) || (e.suffix == "CssSelector" && w == "Css")
    ensures FamilyName(kind, w) in AddStrategy(m, e)
    ensures AddStrategy(m, e)[FamilyName(kind, w)] == Method(Shorthand(kind, e.using))
  {
    var withMain := AddFamily(m, WdSuffix(e.suffix), e.using);
    if e.suffix == "CssSelector" {
      if w == "Css" {
        assert AddStrategy(m, e) == AddFamily(withMain, "Css", e.using);
      } else {
        assert FamilyName(kind, w) !in FamilyKeys("Css") by { CssFamiliesDisjoint(); }
        assert FamilyName(kind, w) in withMain;
      }
    }
  }

  /** The names entries `lo..` of a list define include those of every later entry. */
  lemma {:induction false} LaterKeysGenerated(entries: seq<StrategyEntry>, lo: nat)
    requires lo < |entries|
    ensures EntryKeys(entries[|entries| - 1]) <= GeneratedKeys(entries[lo..])
    ensures GeneratedKeys(entries[lo..|entries| - 1]) <= GeneratedKeys(entries[lo..])
  {
    assert entries[lo..][..|entries[lo..]| - 1] == entries[lo..|entries| - 1];
  }

  /** Each strategy's shorthands are bound to that strategy, for the main
      family and, for `CssSelector`, the `Css` family too, unless a later
      entry defines the same name. */
  lemma {:induction false} ExpandBindsStrategy(m: map<string, Descriptor>, entries: seq<StrategyEntry>,
                            i: nat, kind: ShorthandKind, w: string)
    requires i < |entries|
    requires w == WdSuffix(entries[i].suffix) || (entries[i].suffix == "CssSelector" && w == "Css")
    requires FamilyName(kind, w) !in GeneratedKeys(entries[i + 1..])
    ensures FamilyName(kind, w) in Expand(m, entries)
    ensures Expand(m, entries)[FamilyName(kind, w)] == Method(Shorthand(kind, entries[i].using))
    decreases |entries|
  {
    var init := entries[..|entries| - 1];
    if i == |entries| - 1 {
      AddStrategyBinds(Expand(m, init), entries[i], kind, w);
    } else {
      LaterKeysGenerated(entries, i + 1);
      assert init[i] == entries[i];
      assert init[i + 1..] == entries[i + 1..|entries| - 1];
      ExpandBindsStrategy(m, init, i, kind, w);
    }
  }

  /** `hasElementByCss` and `hasElementByCssSelector` (and the other four
      pairs) resolve to the same shorthand bound to the same strategy. */
  lemma CssAliasesCssSelector(m: map<string, Descriptor>, entries: seq<StrategyEntry>, i: nat, kind: ShorthandKind)
    requires i < |entries| && entries[i].suffix == "CssSelector"
    requires FamilyName(kind, "Css") !in GeneratedKeys(entries[i + 1..])
    requires FamilyName(kind, "CssSelector") !in GeneratedKeys(entries[i + 1..])
    ensures FamilyName(kind, "Css") in Expand(m, entries) && FamilyName(kind, "CssSelector") in Expand(m, entries)
    ensures Expand(m, entries)[FamilyName(kind, "Css")] == Expand(m, entries)[FamilyName(kind, "CssSelector")]
  {
    ExpandBindsStrategy(m, entries, i, kind, "Css");
    ExpandBindsStrategy(m, entries, i, kind, "CssSelector");
  }

  /** The XPath strategy's names keep the `XPath` spelling, in the `OrNull`
      and `IfExists` forms as in the other three, and are bound to it. */
  lemma XpathNamesUseXPath(m: map<string, Descriptor>, entries: seq<StrategyEntry>, i: nat, kind: ShorthandKind)
    requires i < |entries| && entries[i].suffix == "Xpath"
    requires FamilyName(kind, "XPath") !in GeneratedKeys(entries[i + 1..])
    ensures WdSuffix(entries[i].suffix) == "XPath"
    ensures FamilyName(kind, "XPath") in Expand(m, entries)
    ensures Expand(m, entries)[FamilyName(kind, "XPath")] == Method(Shorthand(kind, entries[i].using))
  {
    ExpandBindsStrategy(m, entries, i, kind, "XPath");
  }

  /** The generated names for the `Xpath` suffix, spelled out. */
  lemma XpathSpelling()
    ensures FamilyName(OrNull, WdSuffix("Xpath")) == "elementByXPathOrNull"
    ensures FamilyName(IfExists, WdSuffix("Xpath")) == "elementByXPathIfExists"
    ensures FamilyName(Has, WdSuffix("Xpath")) == "hasElementByXPath"
  {
  }
}

=== FILE: text_search.dfy ===
/** The `textPresent` test `text.indexOf(searchText) > -1`. */
module TextSearch {
  import opened Outcomes
  import opened JsValues

  /** `pat` occurs in `text` starting at position `j`. */
  predicate OccursAt(text: string, pat: string, j: int) {
    0 <= j && j + |pat| <= |text| && text[j..j + |pat|] == pat
  }

  /** `text.indexOf(pat, from)`: the first occurrence at or after `from`, or -1. */
  function IndexOfFrom(text: string, pat: string, from: nat): (r: int)
    requires from <= |text|
    decreases |text| - from
    ensures r == -1 || (from <= r && OccursAt(text, pat, r))
    ensures r == -1 <==> forall j :: from <= j ==> !OccursAt(text, pat, j)
    ensures r >= 0 ==> forall j :: from <= j < r ==> !OccursAt(text, pat, j)
  {
    if from + |pat| > |text| then -1
    else if text[from..from + |pat|] == pat then from
    else IndexOfFrom(text, pat, from + 1)
  }

  function IndexOf(text: string, pat: string): (r: int)
    ensures r == -1 <==> forall j :: !OccursAt(text, pat, j)
    ensures r >= 0 ==> OccursAt(text, pat, r) && forall j :: 0 <= j < r ==> !OccursAt(text, pat, j)
  {
    IndexOfFrom(text, pat, 0)
  }

  /** `indexOf(search) > -1` holds exactly when `search` is a substring. */
  function Contains(text: string, search: string): (b: bool)
    ensures b <==> exists j :: OccursAt(text, search, j)
  {
    IndexOf(text, search) > -1
  }

  /** An empty search text is present in every text, the empty one included. */
  lemma EmptySearchAlwaysPresent(text: string)
    ensures Contains(text, "")
  {
  }

  /** The outcome of a `TextTest` action given the visible text, or the
      engine's failure to produce it. */
  function SettleTextTest(search: string, visible: Result<string, EngineError>): (r: Result<Value, Failure>)
    ensures visible.Err? ==> r == Err(FromEngine(visible.error))
    ensures visible.Ok? ==> r.Ok? && (r.value == Bool(true) <==> exists j :: OccursAt(visible.value, search, j))
    ensures visible.Ok? ==> r.value.Bool?
  {
    match visible
    case Err(e) => Err(FromEngine(e))
    case Ok(text) => Ok(Bool(Contains(text, search)))
  }
}
